=== FILE: README.md ===
# Chat state engine of the Java texting servers, in Dafny

This project models the in-memory state behind the two Java chat servers,
`Main.java` and its older copy `EnhancedSimpleServer.java`, and proves
properties of that model. Both servers keep everything in static maps:

- registered users;
- per-session message lists;
- profiles and settings;
- in `Main.java` only, the typing-presence set and its timestamp map.

The HTTP handlers change these maps. The model keeps those changes and
drops the HTTP, HTML, JSON and image code around them.

Modules, one per component:

- `Results`: `Option` (Java's `null`) and `Outcome`, the answer a handler
  gives: ok, missing parameter (400), not found (404), unauthorized (403),
  already exists, or a redirect home.
- `Seqs`: first-match search and order-keeping filtering over sequences.
- `Text`: the `java.lang.String` and `Integer` behaviour the handlers use.
  This covers `trim`, ASCII `toLowerCase`, `contains` and `Integer.parseInt`
  (optional sign, decimal digits, 32-bit range).
- `FormParams`: `extractParam`, with Java's `split("&")` and `split("=", 2)`
  written out. URL decoding is a parameter of the caller.
- `Paths`: how handlers read ids out of the request path (`substring`,
  `split("/")`).
- `Ledger`: the `Message` record and what its methods do: edit, soft delete,
  reactions. Also `findMessageById`, the reply snapshot taken when a
  message is posted, the list view, and `searchMessages`.
- `Identity`: `User` and `UserProfile`, the activity and counter updates,
  partial profile updates, and the field rules of the settings forms.
- `Presence`: the typing timestamps, keyed by (session, user), `isExpired`,
  what `cleanupExpiredTyping` keeps, and the whole effect of one typing
  request. Main.java's string key `sessionId + ":" + username` is kept
  beside it to show where the two differ.
- `MainServer`: `UserSettings` of `Main.java` and a class `Server` whose
  fields are the six maps. Each handler is a method that changes only the
  fields in its `modifies` frame. A ghost predicate `Valid` states what every
  handler preserves:
  - every record is stored under its own username;
  - every registered user has a profile and settings;
  - `refreshInterval` stays in [500, 5000] and `maxMessagesDisplay` in [20, 500];
  - every stored reaction count is at least 1.
- `EnhancedSimpleServer`: the older server as the subset it is. Messages
  have no id, flags, reactions or replies. Settings have no range-checked
  fields. There is no typing presence. A lemma shows that its settings
  defaults and updates agree with `Main.java`'s on the shared fields.

Handlers take the form fields that `extractParam` returned, each as an
`Option`, plus the session id or username read from the path. The clock is
a parameter `now`, in milliseconds for typing. In `Main.java` the message id
is a parameter `id`. The source does not keep ids unique, and the model does
not assume it: `findMessageById` finds the first match.

## Model

| member | source | states |
|---|---|---|
| Seqs.FirstWhere | Main.java:158-168 | the index returned satisfies the test and no earlier element does; none is returned exactly when no element satisfies it |
| Seqs.FilterMembers | Main.java:137-156 | the filtered sequence holds exactly the elements that pass the test |
| Seqs.FilterAppend | Main.java:137-156 | filtering distributes over concatenation, so the original order is kept |
| Seqs.FilterSplitAt | Main.java:137-156 | filtering a sequence is filtering the part before position k, then element k if it passes, then the part after |
| Text.Trim | Main.java:972 | the result is a contiguous slice of the input whose first and last characters are above the space character, and every character before and after the slice is at or below the space character |
| Text.TrimEmptyIffBlank | Main.java:965 | trimming gives the empty string exactly when every character is at or below the space character |
| Text.TrimIdempotent | Main.java:972 | trimming twice is trimming once |
| Text.Lower | Main.java:144 | the lower-cased string has the same length and maps each character through ASCII lower-casing |
| Text.LowerIdempotent | Main.java:144 | lower-casing twice is lower-casing once |
| Text.Contains | Main.java:149-150 | a query that starts the text is contained in it, and a contained query is never longer than the text |
| Text.ContainsIffSlice | Main.java:149-150 | `contains` holds exactly when the query occurs as a slice at some position |
| Text.ParseInt | Main.java:1112-1120 | a value is returned exactly when the text after an optional sign is a non-empty run of decimal digits whose signed value is within the 32-bit range, and the value is that signed value |
| Text.ParseIntShowInt | Main.java:1112-1120 | every 32-bit integer written in decimal parses back to itself |
| Text.ParseIntRejectsOverflow | Main.java:1112-1120 | the decimal text of any number outside the 32-bit range does not parse, as `NumberFormatException`; it is not wrapped round |
| FormParams.JoinPieces | Main.java:757-771 | splitting on a separator and joining back gives the original text |
| FormParams.PiecesJoin | Main.java:757-771 | joining separator-free pieces and splitting again gives the same pieces |
| FormParams.Split | Main.java:759 | text without the separator splits into itself alone; no piece contains the separator; with a separator present, the last piece kept is not empty |
| FormParams.KeyValue | Main.java:761 | a pair without '=' has no key and value; otherwise the key is the text before the first '=' and the value is everything after it |
| FormParams.DecodeOr | Main.java:762-766 | the decoded value when `URLDecoder.decode` succeeds, and the raw value when it throws |
| FormParams.Lookup | Main.java:760-768 | nothing is returned exactly when no pair names the parameter; a returned value is the decoded value of a pair that names it |
| FormParams.LookupIsFirstNamed | Main.java:760-768 | the parameter loop returns the decoded value of the first pair whose key is the name |
| FormParams.LookupIgnoresTrailingEmpty | Main.java:759 | Java's dropping of trailing empty pieces never changes the answer |
| FormParams.ExtractParam | Main.java:757-771 | a null input gives nothing; a value is returned exactly when some '&'-separated piece names the parameter |
| FormParams.ExtractParamSpec | Main.java:757-771 | `extractParam` gives nothing for a null input; otherwise it gives the decoded value of the first '&'-separated piece whose text before its first '=' is the name, or nothing when no piece qualifies |
| FormParams.ValueMayContainEquals | EnhancedSimpleServer.java:393-407 | only the first '=' separates, so "a=b=c" gives the decoding of "b=c" for "a", or "b=c" itself when decoding fails |
| Paths.Substring | Main.java:591 | `substring(n)` throws exactly when n exceeds the length; otherwise the result is what follows the first n characters |
| Paths.SubstringRecoversIdIff | Main.java:277 | cutting route + id at n gives back the id exactly when n is the length of the route |
| Paths.MessagesSessionId | Main.java:277 | the cut throws exactly on a path shorter than "/api/messages/"; on a path with that route it gives the id after it |
| Paths.SearchSessionId | Main.java:623 | the cut throws exactly on a path shorter than "/api/search/"; on a path with that route it gives the id after it |
| Paths.ProfileUsername | Main.java:375 | the cut throws exactly on a path shorter than "/api/profile/"; on a path with that route it gives the username after it |
| Paths.ChatSessionId | Main.java:1150 | the cut throws exactly on a path shorter than "/chat/"; on a path with that route it gives the id after it |
| Paths.ReadersRecoverIds | Main.java:277 | the messages (14), search (12), profile (13) and chat (6) offsets give back exactly the id after their route |
| Paths.TypingSessionIdAsWritten | Main.java:591 | as written, the cut throws unless the path is longer than "/api/typing/", and after that route it gives the id without its first character |
| Paths.TypingSessionIdAsWrittenDropsFirstChar | Main.java:591 | as written, the typing handler drops the first character of the session id and throws when the id is empty |
| Paths.TypingSessionId | Main.java:591 | the intended reading: the route followed by the result is the path |
| Paths.TypingSessionIdRecoversId | Main.java:591 | the intended reading gives back every session id after "/api/typing/" |
| Paths.SettingsKeyAsWritten | Main.java:451 | as written, the cut throws only on a path shorter than 13 characters, and after "/api/settings/" it gives "/" followed by the username |
| Paths.SettingsKeyAsWrittenKeepsSlash | Main.java:451 | as written, the settings API uses "/" plus the username as the key, never the username |
| Paths.SettingsKey | EnhancedSimpleServer.java:288 | the intended reading: the route followed by the key is the path |
| Paths.SettingsKeyRecoversUsername | Main.java:451 | the intended reading gives back the username after "/api/settings/" |
| Paths.MessageRef | Main.java:655-664 | the ids are returned exactly when `split("/")` gives at least five parts, and neither contains '/'; otherwise the path is invalid |
| Paths.MessageRefRecoversIds | Main.java:655-664 | "/api/{action}/{session}/{message}" yields both ids when no segment contains '/' and the message id is not empty |
| Paths.MessageRefNeedsMessageId | Main.java:655-659 | a path ending in a slash after the session id, empty or not, has fewer than five parts and is refused as an invalid path |
| Ledger.AddReaction | Main.java:102-104 | the emoji's count rises by exactly 1 from 0 if absent; every other emoji keeps its presence and count; all counts stay at least 1 |
| Ledger.RemoveReaction | Main.java:106-115 | an absent emoji changes nothing; a count of 1 or less removes the key; a larger count drops by 1; other emojis are untouched; all counts stay at least 1 |
| Ledger.RemoveUndoesAdd | Main.java:102-115 | when every count is at least 1, a remove undoes the add before it |
| Ledger.ReactionCountExample | Main.java:102-115 | three adds and two removes leave 1, and one more remove deletes the key |
| Ledger.React | Main.java:575-579 | "add" and "remove" apply the matching count change; any other action leaves the reactions unchanged; every other field of the message is kept |
| Ledger.Edited | Main.java:91-95 | the content becomes the new text and the message is marked edited with the edit time; every other field, the deleted flag included, is kept |
| Ledger.Deleted | Main.java:97-100 | the message is flagged deleted and shows "[Message deleted]"; every other field, the edit mark and time included, is kept |
| Ledger.DeleteIdempotent | Main.java:97-100 | deleting twice is deleting once |
| Ledger.FindById | Main.java:158-168 | the position of the first message with the id, or nothing when no message has it |
| Ledger.ReplyTarget | Main.java:340-350 | a reply target is found only for a non-empty `replyToId` that `findMessageById` resolves, deleted or not |
| Ledger.PostedMessage | Main.java:64-85 | the new message carries the given id, content, device (as sender and type) and time; a missing username becomes "Anonymous"; it is not edited or deleted and has no reactions; a resolved reply copies the target's current content and author, and an unresolved one leaves all reply fields empty |
| Ledger.ReplySnapshotsSurviveChanges | Main.java:80-85 | editing, deleting or reacting to any one message leaves every message's reply fields unchanged, so a snapshot does not follow later edits |
| Ledger.Visible | Main.java:287-290 | the list view is no longer than the session |
| Ledger.VisibleMembers | Main.java:287-290 | the list view holds exactly the messages that are not deleted |
| Ledger.VisibleAfterPost | Main.java:359 | a newly posted message appears at the end of the list view, after the earlier ones |
| Ledger.VisibleAfterDelete | Main.java:97-100 | after deleting message k, the list view is the view of the messages before k followed by the view of those after k |
| Ledger.VisibleAfterEdit | Main.java:91-95 | an edit replaces message k in place in the list view, and editing a deleted message leaves the list view unchanged |
| Ledger.Search | Main.java:137-141 | a null or blank query gives no results, and the results are never more than the messages |
| Ledger.SearchMembers | Main.java:137-156 | the results are exactly the messages that are not deleted and whose lower-cased content or username contains the lower-cased, trimmed query |
| Ledger.SearchAfterPost | Main.java:144-153 | a post adds itself at the end of the results when it matches, and otherwise leaves the results as they were |
| Ledger.SearchWithinVisible | Main.java:146-147 | every search result is in the list view |
| Identity.NewUser | Main.java:34-41 | a new user has both counters at 0, no e-mail, creation and activity time now, and the display name given, or the username when none is given |
| Identity.Touch | Main.java:43-45 | the activity time becomes now and every other field is kept |
| Identity.CountMessage | Main.java:363-365 | a post by a registered author adds exactly 1 to `totalMessages` and refreshes the activity time; every other field is kept |
| Identity.CountSession | Main.java:973-976 | a new session adds exactly 1 to `totalSessions`; every other field is kept |
| Identity.NewProfile | Main.java:180-187 | a new profile has every field empty, under the given username |
| Identity.UpdateUser | Main.java:1017-1039 | display name and e-mail are overwritten only when present; the activity time becomes now; every other field, `createdAt` included, is kept |
| Identity.UpdateProfile | Main.java:1024-1037 | each of bio, picture, location, website and phone is overwritten only when present; the username is kept |
| Identity.ProfileUpdateIdempotent | Main.java:1008-1043 | applying the same profile form twice is applying it once |
| Identity.EmptyProfileFormKeepsFields | Main.java:1008-1043 | a form with no fields changes only the activity time |
| Identity.Flag | Main.java:1081-1082 | an absent field keeps the flag; a present one sets it true exactly when it equals the true word |
| Identity.ParsedOr | Main.java:1099-1106 | an absent or non-numeric value keeps the setting; a parsable one replaces it, with no range check |
| Identity.BoundedOr | Main.java:1112-1121 | the setting either stays or becomes a parsed value inside the range; an in-range value is always taken; a setting inside the range stays inside it |
| Identity.BoundedRejectsOutOfRange | Main.java:1112-1121 | an out-of-range number leaves the setting unchanged: it is rejected, not clamped |
| Presence.IsExpired | Main.java:739 | an entry is expired only when it lies in the past, and never at or before the time it was stamped |
| Presence.Survivors | Main.java:734-743 | the users kept are a subset of the session's set, and a user is kept exactly when their timestamp is present and not expired; corrected reading (pair key), see ## Findings |
| Presence.ExpiredKeys | Main.java:736-741 | the keys removed all belong to the session, and a user's key is removed exactly when the user is in the set and not fresh; corrected reading (pair key), see ## Findings |
| Presence.SurvivorsAsWritten | Main.java:734-743 | as written, over the string key: the users kept are a subset of the set, and a user is kept exactly when their string-keyed timestamp is present and not expired |
| Presence.ExpiredKeysAsWritten | Main.java:736-741 | as written: the string key of every user in the set who is not fresh is removed, and every key removed is such a user's string key |
| Presence.StagedTimesAsWritten | Main.java:603-609 | as written: "start" stamps the string key with now, "stop" removes it, any other action keeps the map; no other string key changes |
| Presence.TypingKeyAsWritten | Main.java:605 | the string key is the session id, a ':' and the username, in that order |
| Presence.FirstColonOfKey | Main.java:605 | for a session id without ':', the first ':' of the string key is the one right after the session id |
| Presence.TypingKeyAsWrittenInjective | Main.java:605 | within one session, or across session ids without ':', the string key determines both the session and the user |
| Presence.TypingKeyCollides | Main.java:605 | the string key as written does not: ("a", "b:c") and ("a:b", "c") share a key |
| Presence.StopEvictsOtherSessionAsWritten | Main.java:605-608 | with the string key, user "b:c" stopping in session "a" removes the timestamp of user "c" still typing in session "a:b", so "c" is no longer fresh there |
| Presence.SurvivorsAreFresh | Main.java:727-744 | after the purge, every user left has a timestamp that is present and at most 3000 ms old |
| Presence.ExpiredKeysMiss | Main.java:736-741 | a user not yet visited has no key among those already removed |
| Presence.ExpiredKeysStep | Main.java:736-741 | visiting one more user removes that user's key exactly when the user is not fresh |
| Presence.StagedTyping | Main.java:601-609 | "start" adds the user, "stop" removes the user, any other action keeps the set; no other user changes |
| Presence.StagedTimes | Main.java:603-609 | "start" stamps the user's key with now, "stop" removes the key, any other action keeps the map; no other key changes |
| Presence.TypingRequest | Main.java:585-614 | only the session's entry of the typing map changes; every user left in it is fresh; a user who starts is present with time now; a user who stops is absent, without a timestamp; every other user of the set stays exactly when still fresh; a timestamp of another user of the session stays exactly when that user was not in the set or is still fresh; an unknown action treats the requester like any other user; no timestamp is added but the requester's, none changes value, and every timestamp of another session is kept; corrected reading (pair key), see ## Findings |
| Presence.TypingRequestAsWritten | Main.java:585-614 | the request as written, over the string key: only the session's entry of the typing map changes, every user left is fresh under the string key, and no timestamp but the requester's is added or changed |
| Presence.TypingRequestAgreesAsWritten | Main.java:585-614 | when no session id contains ':', the request as written, run on the encoded timestamps, gives the same typing map and the encoding of the pair-keyed timestamps |
| Presence.TypingRequestKeepsOtherSessions | Main.java:601-612 | with one key per (session, user) pair, a request in one session keeps every other session's set and the freshness of every user there |
| MainServer.DefaultSettings | Main.java:207-222 | the defaults: notifications, sound and read receipts on, theme "auto", language "english", compact mode off, timeout 60, auto-refresh on every 1000 ms, timestamps and typing indicators shown, 100 messages; the defaults are in range |
| MainServer.ApiSettingsUpdate | Main.java:482-508 | each of the seven original fields is updated per its rule, with "true" as the true word and any parsable timeout; the five newer fields are kept, and the ranged fields stay in range |
| MainServer.PageSettingsUpdate | Main.java:1077-1145 | every one of the twelve fields is updated per its rule: the booleans with "on" as the true word, theme and language overwritten when present, the interval only in [500, 5000], the display count only in [20, 500], any parsable timeout; the ranged fields stay in range |
| MainServer.EmptySettingsFormKeepsSettings | Main.java:1077-1145 | fields absent from the request leave the settings unchanged on both paths |
| MainServer.SessionTimeoutUnbounded | Main.java:1099-1106 | any 32-bit session timeout is stored as given; there is no [5, 300] check |
| MainServer.Authorize | Main.java:674-685 | not found exactly when no message has the id; ok exactly when the first message with the id was written by the requester; otherwise unauthorized |
| MainServer.Server.constructor | Main.java:15-21 | all six maps start empty and the invariant holds |
| MainServer.Server.LedgerFor | Main.java:280-284 | an absent session is created empty; an existing one is untouched; its messages are returned |
| MainServer.Server.GetMessages | Main.java:276-327 | the session is created if absent, and the answer is the list view of its messages |
| MainServer.Server.PostMessage | Main.java:329-370 | with content and device present, exactly one posted message is appended at the end of the session; `totalMessages` rises by 1 only for a registered author; a missing field changes nothing |
| MainServer.Server.SearchMessages | Main.java:617-631 | an unknown session gives no results; otherwise the session is searched with the query |
| MainServer.Server.EditMessage | Main.java:650-687 | missing fields, not found and unauthorized change nothing; otherwise only the first message with the id is edited |
| MainServer.Server.DeleteMessage | Main.java:689-724 | missing username, not found and unauthorized change nothing; otherwise only the first message with the id is soft-deleted |
| MainServer.Server.ReactToMessage | Main.java:546-582 | missing fields or an unknown id change nothing; otherwise only that message's reactions change, with no author check |
| MainServer.Server.SetTyping | Main.java:585-614 | a missing username or action changes nothing; otherwise both maps become exactly `Presence.TypingRequest` of the old ones: the action staged, then the session purged; corrected reading (pair key), see ## Findings |
| MainServer.Server.CleanupExpiredTyping | Main.java:727-744 | the session's set becomes its fresh users and exactly the keys of the others are removed; an unknown session changes nothing; corrected reading (pair key), see ## Findings |
| MainServer.Server.GetProfile | Main.java:377-403 | an unknown user is not found; otherwise the user and the profile are returned |
| MainServer.Server.ApplyProfileForm | Main.java:1008-1043 | a registered user's User and profile records are replaced by their partial updates |
| MainServer.Server.UpdateProfileApi | Main.java:405-446 | an unknown user is not found and nothing changes; otherwise the partial update is applied |
| MainServer.Server.UpdateProfilePage | Main.java:982-1043 | a missing or unknown user is sent home and nothing changes; otherwise the partial update is applied |
| MainServer.Server.SettingsFor | Main.java:1062-1066 | settings are created with defaults for any key that has none; existing settings are untouched |
| MainServer.Server.GetSettings | Main.java:453-458 | the stored settings, or fresh defaults stored under the key |
| MainServer.Server.UpdateSettingsApi | Main.java:474-511 | settings are created lazily for any key, registered or not, then the API update is applied |
| MainServer.Server.UpdateSettingsPage | Main.java:1045-1145 | a missing or unknown user is sent home and nothing changes; otherwise the page update is applied and the activity time refreshed |
| MainServer.Server.Register | Main.java:886-911 | missing fields or an existing name change nothing; otherwise a new user, an empty profile and default settings are stored together under the name |
| MainServer.Server.Login | Main.java:913-932 | a missing name or an unknown user changes nothing; otherwise only the activity time is refreshed |
| MainServer.Server.CreateSession | Main.java:961-980 | the trimmed password is the session id; a missing or blank password changes nothing; a new id gets an empty session and `totalSessions` rises by 1; an existing id changes nothing |
| MainServer.Server.OpenChat | Main.java:1148-1158 | the session exists afterwards, created empty if absent; no user changes |
| MainServer.Server.SetTypingAt | Main.java:585-614 | the full typing request under the whole session id after the route; corrected reading, see ## Findings |
| MainServer.Server.GetSettingsAt | Main.java:450-474 | the settings read, and created with defaults when absent, under the whole key after the route, every other key kept; corrected reading, see ## Findings |
| MainServer.Server.UpdateSettingsApiAt | Main.java:450-511 | the settings updated under the whole key after the route; corrected reading, see ## Findings |
| MainServer.CreateSessionTwiceCountsOnce | Main.java:971-976 | creating the same session twice raises the creator's `totalSessions` by at most 1 in total |
| MainServer.RegisterThenUpdateSettings | Main.java:906 | with the intended key, the settings API reaches the settings that registration created |
| EnhancedSimpleServer.NewSimpleMessage | EnhancedSimpleServer.java:53-59 | the message keeps the content, uses the device as sender and type, and becomes "Anonymous" when no username is given |
| EnhancedSimpleServer.DefaultBasicSettings | EnhancedSimpleServer.java:92-101 | notifications, sound and read receipts on, theme "auto", language "english", compact mode off, timeout 60 |
| EnhancedSimpleServer.ApplyBasicSettings | EnhancedSimpleServer.java:310-345 | each present boolean becomes true exactly when it equals the true word; theme and language are overwritten verbatim; the timeout takes any parsable integer; absent fields are unchanged |
| EnhancedSimpleServer.SettingsAgreeWithMain | EnhancedSimpleServer.java:713-747 | the older defaults and both older updates agree with `Main.java`'s on the eight shared fields |
| EnhancedSimpleServer.Server.constructor | EnhancedSimpleServer.java:15-18 | all four maps start empty and the invariant holds |
| EnhancedSimpleServer.Server.GetMessages | EnhancedSimpleServer.java:158-179 | an unknown session is created empty with no user counter touched; every message is listed in order |
| EnhancedSimpleServer.Server.PostMessage | EnhancedSimpleServer.java:181-207 | with content and device present, exactly one message is appended at the end; `totalMessages` rises by 1 only for a registered author; a missing field changes nothing |
| EnhancedSimpleServer.Server.GetProfile | EnhancedSimpleServer.java:214-243 | an unknown user is not found; otherwise the user and the profile are returned |
| EnhancedSimpleServer.Server.ApplyProfileForm | EnhancedSimpleServer.java:644-678 | a registered user's User and profile records are replaced by their partial updates |
| EnhancedSimpleServer.Server.UpdateProfileApi | EnhancedSimpleServer.java:245-283 | an unknown user is not found and nothing changes; otherwise the partial update is applied |
| EnhancedSimpleServer.Server.UpdateProfilePage | EnhancedSimpleServer.java:618-678 | a missing or unknown user is sent home and nothing changes; otherwise the partial update is applied |
| EnhancedSimpleServer.Server.GetSettings | EnhancedSimpleServer.java:290-296 | the stored settings, or fresh defaults stored under any key |
| EnhancedSimpleServer.Server.UpdateSettingsApi | EnhancedSimpleServer.java:310-348 | settings are created lazily for any key, then updated with "true" as the true word |
| EnhancedSimpleServer.Server.UpdateSettingsPage | EnhancedSimpleServer.java:681-747 | a missing or unknown user is sent home and nothing changes; otherwise the settings are updated with "on" as the true word and the activity time refreshed |
| EnhancedSimpleServer.Server.Register | EnhancedSimpleServer.java:522-546 | missing fields or an existing name change nothing; otherwise user, empty profile and default settings are stored together |
| EnhancedSimpleServer.Server.Login | EnhancedSimpleServer.java:549-568 | a missing name or an unknown user changes nothing; otherwise only the activity time is refreshed |
| EnhancedSimpleServer.Server.CreateSession | EnhancedSimpleServer.java:597-615 | the trimmed password is the id; a blank password changes nothing; only a new id creates a session and raises `totalSessions` by 1 |
| EnhancedSimpleServer.Server.OpenChat | EnhancedSimpleServer.java:750-760 | the session exists afterwards, created empty if absent; no user changes |
| EnhancedSimpleServer.Server.GetSettingsAt | EnhancedSimpleServer.java:287-306 | the settings read, and created with defaults when absent, under the whole key after the route, every other key kept; corrected reading, see ## Findings |
| EnhancedSimpleServer.Server.UpdateSettingsApiAt | EnhancedSimpleServer.java:287-348 | the settings updated under the whole key after the route; corrected reading, see ## Findings |

## Left out

- HTTP plumbing: routing, reading the body, response codes and headers, and
  `handleHome`/`handleDashboard` GET pages. Handlers report an `Outcome`
  instead of a status code or redirect.
- HTML, CSS and JavaScript page generators, and the QR image handler:
  presentation only.
- JSON building in the GET, search, profile, settings and stats handlers:
  wire encoding only. It can also leave a trailing comma when the last
  message is deleted, and it escapes only `"`. The model returns the
  records or the filtered message sequence.
- `handleUser` (stats): it only reads one user and writes JSON.
- The `messageReactions` map (Main.java:19): it is declared but never used.
  Reactions live in each message.
- The `TypingIndicator` class (Main.java:119-133): it is declared but never
  instantiated. Expiry is the test inside `cleanupExpiredTyping`
  (Main.java:739), modelled by `Presence.IsExpired`.
- Concurrency: the source's concurrent maps hold unsynchronised lists and
  sets. The model runs one operation at a time.
- Clocks and randomness: `new Date().toString()` and
  `System.currentTimeMillis()` are the parameter `now`, a number. One `now`
  serves both the typing start and the purge that follows it. The random
  message id of `generateMessageId` is the parameter `id`.
- `URLDecoder.decode` is a function the caller supplies. When it returns
  `None`, the decoder threw and the raw value is used.
- `toLowerCase` maps ASCII letters only, and `parseInt` accepts ASCII digits
  only. Unicode case mapping and non-ASCII digits are not modelled. `trim`
  removes every character at or below U+0020, as Java's does.
- Identity.CountMessage: `totalMessages` is an unbounded natural. The 32-bit
  wrap-around of the Java `int` after 2^31 - 1 messages is not modelled.
- Identity.CountSession: `totalSessions` is unbounded in the same way.
- Ledger.AddReaction: a reaction count is unbounded. The Java `Integer`
  wrap-around after 2^31 - 1 adds is not modelled.
- MainServer.Server.GetProfile: `Valid` keeps a profile for every registered
  user, so the source's lazy profile creation never takes effect here. The
  model still writes it, as an update that stores the same value.
- Path reading for edit, delete and reactions (`split("/")`) is modelled by
  `Paths.MessageRef`. The handler methods take the two ids it yields.
- `sessionTimeout` is accepted as any parsable integer (Main.java:1099-1106).
  A [5, 300] range exists only as HTML input attributes (Main.java:1469),
  and the model has none.
- Registration stores default settings under the new name, replacing any
  settings already stored there (Main.java:906). With the corrected key, the
  settings API's lazy creation can store such settings before the name is
  registered.
- The handlers key the typing timestamps by the (session, user) pair, not by
  the string `sessionId + ":" + username`. `Presence.TypingRequestAsWritten`
  keeps the string key, and `Presence.TypingRequestAgreesAsWritten` shows the
  two agree whenever no session id contains ':'. See ## Findings.

## Findings

| source | as written | input that shows it | evidently intended | confidence | as-written member | corrected member |
|---|---|---|---|---|---|---|
| Main.java:591 | `path.substring(13)` after the 12-character route "/api/typing/" | "/api/typing/room1" gives session "oom1"; "/api/typing/" throws | `substring(12)`: the whole session id | high; not executed | Paths.TypingSessionIdAsWrittenDropsFirstChar | Paths.TypingSessionId |
| Main.java:451 | `path.substring(13)` after the 14-character route "/api/settings/" (also EnhancedSimpleServer.java:288) | "/api/settings/alice" reads and writes settings under "/alice", not "alice" | `substring(14)`: the username | high; not executed | Paths.SettingsKeyAsWrittenKeepsSlash | Paths.SettingsKey |
| Main.java:605 | timestamp key `sessionId + ":" + username`, shared by different (session, user) pairs | user "b:c" stopping in session "a" removes key "a:b:c", the timestamp of user "c" typing in session "a:b"; the next purge of "a:b" drops "c" | one timestamp per (session, user) pair, so a request in one session never touches another | medium; not executed | Presence.StopEvictsOtherSessionAsWritten | Presence.TypingRequestKeepsOtherSessions |

=== FILE: enhanced_simple_server.dfy ===
/**
 * EnhancedSimpleServer.java, the older and smaller copy of the chat state:
 * messages without ids, flags, reactions or replies; settings without the
 * range-checked fields; no typing presence.  Users and profiles are the
 * same records as in Main.java.
 */
module EnhancedSimpleServer {
  import opened Results
  import opened Text
  import opened Identity
  import MainServer
  import Ledger
  import Paths

  /** A message of the older server: `sender` and `deviceType` both hold the posting device. */
  datatype SimpleMessage = SimpleMessage(
    content: string,
    sender: string,
    username: string,
    timestamp: int,
    deviceType: string)

  /** The Message constructor: a missing username becomes "Anonymous". */
  function NewSimpleMessage(content: string, senderDevice: string, username: Option<string>, now: int): (m: SimpleMessage)
    ensures m.content == content && m.sender == senderDevice && m.deviceType == senderDevice
    ensures m.username == (if username.Some? then username.value else Ledger.AnonymousName)
    ensures m.timestamp == now
  {
    SimpleMessage(content, senderDevice, if username.Some? then username.value else Ledger.AnonymousName, now, senderDevice)
  }

  datatype BasicSettings = BasicSettings(
    username: string,
    notifications: bool,
    soundEnabled: bool,
    theme: string,
    language: string,
    compactMode: bool,
    readReceipts: bool,
    sessionTimeout: int)

  /** The UserSettings constructor of the older server. */
  function DefaultBasicSettings(username: string): (s: BasicSettings)
    ensures s.username == username && s.notifications && s.soundEnabled
    ensures s.theme == "auto" && s.language == "english" && !s.compactMode && s.readReceipts
    ensures s.sessionTimeout == 60
  {
    BasicSettings(username, true, true, "auto", "english", false, true, 60)
  }

  datatype BasicSettingsForm = BasicSettingsForm(
    notifications: Option<string>,
    soundEnabled: Option<string>,
    theme: Option<string>,
    language: Option<string>,
    compactMode: Option<string>,
    readReceipts: Option<string>,
    sessionTimeout: Option<string>)

  /**
   * Both settings updates of the older server: a boolean present in the
   * form becomes true exactly when it equals `truthy` ("true" on the API,
   * "on" on the page); theme and language are taken verbatim; the timeout
   * takes any parsable integer.
   */
  function ApplyBasicSettings(s: BasicSettings, f: BasicSettingsForm, truthy: string): (r: BasicSettings)
    ensures r.username == s.username
    ensures f.notifications.Some? ==> (r.notifications <==> f.notifications.value == truthy)
    ensures f.notifications.None? ==> r.notifications == s.notifications
    ensures f.soundEnabled.Some? ==> (r.soundEnabled <==> f.soundEnabled.value == truthy)
    ensures f.soundEnabled.None? ==> r.soundEnabled == s.soundEnabled
    ensures f.compactMode.Some? ==> (r.compactMode <==> f.compactMode.value == truthy)
    ensures f.compactMode.None? ==> r.compactMode == s.compactMode
    ensures f.readReceipts.Some? ==> (r.readReceipts <==> f.readReceipts.value == truthy)
    ensures f.readReceipts.None? ==> r.readReceipts == s.readReceipts
    ensures r.theme == (if f.theme.Some? then f.theme.value else s.theme)
    ensures r.language == (if f.language.Some? then f.language.value else s.language)
    ensures r.sessionTimeout == (if f.sessionTimeout.Some? && ParseInt(f.sessionTimeout.value).Some?
                                 then ParseInt(f.sessionTimeout.value).value else s.sessionTimeout)
  {
    s.(notifications := Flag(f.notifications, s.notifications, truthy),
       soundEnabled := Flag(f.soundEnabled, s.soundEnabled, truthy),
       theme := Overwrite(f.theme, s.theme),
       language := Overwrite(f.language, s.language),
       compactMode := Flag(f.compactMode, s.compactMode, truthy),
       readReceipts := Flag(f.readReceipts, s.readReceipts, truthy),
       sessionTimeout := ParsedOr(f.sessionTimeout, s.sessionTimeout))
  }

  /** The older settings are the first eight fields of Main.java's. */
  function Basic(s: MainServer.Settings): BasicSettings {
    BasicSettings(s.username, s.notifications, s.soundEnabled, s.theme, s.language,
                  s.compactMode, s.readReceipts, s.sessionTimeout)
  }

  /** The fields of a Main.java settings form the older server reads. */
  function BasicForm(f: MainServer.SettingsForm): BasicSettingsForm {
    BasicSettingsForm(f.notifications, f.soundEnabled, f.theme, f.language,
                      f.compactMode, f.readReceipts, f.sessionTimeout)
  }

  /**
   * The older server is the subset it appears to be: same defaults, and on
   * the shared fields both of its settings updates agree with Main.java's.
   */
  lemma SettingsAgreeWithMain(s: MainServer.Settings, f: MainServer.SettingsForm, username: string)
    ensures Basic(MainServer.DefaultSettings(username)) == DefaultBasicSettings(username)
    ensures Basic(MainServer.ApiSettingsUpdate(s, f)) == ApplyBasicSettings(Basic(s), BasicForm(f), "true")
    ensures Basic(MainServer.PageSettingsUpdate(s, f)) == ApplyBasicSettings(Basic(s), BasicForm(f), "on")
  {
  }

  class Server {
    var users: map<string, User>
    var sessions: map<string, seq<SimpleMessage>>
    var profiles: map<string, Profile>
    var settings: map<string, BasicSettings>

    /** Records are stored under their own username; each registered user has a profile and settings. */
    ghost predicate Valid()
      reads this
    {
      && (forall u :: u in users ==> users[u].username == u)
      && (forall u :: u in profiles ==> profiles[u].username == u)
      && (forall u :: u in settings ==> settings[u].username == u)
      && users.Keys <= profiles.Keys
      && users.Keys <= settings.Keys
    }

    constructor ()
      ensures Valid()
      ensures users == map[] && sessions == map[] && profiles == map[] && settings == map[]
    {
      users, sessions, profiles, settings := map[], map[], map[], map[];
    }

    /** The session's messages; a session never touched reads as empty. */
    function LedgerOf(sessionId: string): seq<SimpleMessage>
      reads this
    {
      if sessionId in sessions then sessions[sessionId] else []
    }

    /** GET /api/messages/{session}: creates the session if needed and lists every message, in order. */
    method GetMessages(sessionId: string) returns (msgs: seq<SimpleMessage>)
      requires Valid()
      modifies this`sessions
      ensures Valid()
      ensures sessions == if sessionId in old(sessions) then old(sessions) else old(sessions)[sessionId := []]
      ensures msgs == old(LedgerOf(sessionId)) == sessions[sessionId]
    {
      if sessionId !in sessions {
        sessions := sessions[sessionId := []];
      }
      msgs := sessions[sessionId];
    }

    /**
     * POST /api/messages/{session}: with content and device present, appends
     * exactly one message (creating the session if needed) and counts it for
     * a registered author; otherwise nothing changes.
     */
    method PostMessage(sessionId: string, content: Option<string>, senderDevice: Option<string>,
                       username: Option<string>, now: int) returns (outcome: Outcome)
      requires Valid()
      modifies this`sessions, this`users
      ensures Valid()
      ensures outcome == (if content.Some? && senderDevice.Some? then Ok else MissingParameter)
      ensures outcome != Ok ==> sessions == old(sessions) && users == old(users)
      ensures outcome == Ok ==>
        sessions == old(sessions)[sessionId := old(LedgerOf(sessionId)) + [NewSimpleMessage(content.value, senderDevice.value, username, now)]]
      ensures outcome == Ok ==>
        users == if username.Some? && username.value in old(users)
                 then old(users)[username.value := CountMessage(old(users)[username.value], now)]
                 else old(users)
      ensures users.Keys == old(users).Keys
      ensures forall u :: u in users ==>
        users[u].totalMessages == old(users)[u].totalMessages + (if outcome == Ok && username == Some(u) then 1 else 0)
    {
      if content.None? || senderDevice.None? {
        return MissingParameter;
      }
      var msgs := LedgerOf(sessionId);
      sessions := sessions[sessionId := msgs + [NewSimpleMessage(content.value, senderDevice.value, username, now)]];
      if username.Some? && username.value in users {
        users := users[username.value := CountMessage(users[username.value], now)];
      }
      outcome := Ok;
    }

    /** GET /api/profile/{user}: unknown user is not found; otherwise the profile is created if missing. */
    method GetProfile(username: string) returns (outcome: Outcome, view: Option<(User, Profile)>)
      requires Valid()
      modifies this`profiles
      ensures Valid()
      ensures outcome == (if username in old(users) then Ok else NotFound)
      ensures outcome == NotFound ==> view.None? && profiles == old(profiles)
      ensures outcome == Ok ==> username in profiles && view == Some((users[username], profiles[username]))
      ensures outcome == Ok ==> profiles == if username in old(profiles) then old(profiles) else old(profiles)[username := NewProfile(username)]
    {
      if username !in users {
        return NotFound, None;
      }
      var profile := if username in profiles then profiles[username] else NewProfile(username);
      profiles := profiles[username := profile];
      outcome, view := Ok, Some((users[username], profile));
    }

    /** The shared body of both profile updates, for a registered user. */
    method ApplyProfileForm(username: string, f: ProfileForm, now: int)
      requires Valid() && username in users
      modifies this`users, this`profiles
      ensures Valid()
      ensures users == old(users)[username := UpdateUser(old(users)[username], f, now)]
      ensures profiles == old(profiles)[username := UpdateProfile(old(profiles)[username], f)]
    {
      var profile := if username in profiles then profiles[username] else NewProfile(username);
      profiles := profiles[username := UpdateProfile(profile, f)];
      users := users[username := UpdateUser(users[username], f, now)];
    }

    /** POST /api/profile/{user}: an unknown user is not found and nothing changes. */
    method UpdateProfileApi(username: string, f: ProfileForm, now: int) returns (outcome: Outcome)
      requires Valid()
      modifies this`users, this`profiles
      ensures Valid()
      ensures outcome == (if username in old(users) then Ok else NotFound)
      ensures outcome == NotFound ==> users == old(users) && profiles == old(profiles)
      ensures outcome == Ok ==>
        users == old(users)[username := UpdateUser(old(users)[username], f, now)]
        && profiles == old(profiles)[username := UpdateProfile(old(profiles)[username], f)]
    {
      if username !in users {
        return NotFound;
      }
      ApplyProfileForm(username, f, now);
      outcome := Ok;
    }

    /** POST /profile?user=...: a missing or unknown user is sent home with nothing changed. */
    method UpdateProfilePage(username: Option<string>, f: ProfileForm, now: int) returns (outcome: Outcome)
      requires Valid()
      modifies this`users, this`profiles
      ensures Valid()
      ensures outcome == (if username.Some? && username.value in old(users) then Ok else RedirectHome)
      ensures outcome == RedirectHome ==> users == old(users) && profiles == old(profiles)
      ensures outcome == Ok ==>
        users == old(users)[username.value := UpdateUser(old(users)[username.value], f, now)]
        && profiles == old(profiles)[username.value := UpdateProfile(old(profiles)[username.value], f)]
    {
      if username.None? || username.value !in users {
        return RedirectHome;
      }
      ApplyProfileForm(username.value, f, now);
      outcome := Ok;
    }

    /** GET /api/settings/{key}: the stored settings, created with defaults when absent, for any key. */
    method GetSettings(key: string) returns (s: BasicSettings)
      requires Valid()
      modifies this`settings
      ensures Valid()
      ensures settings == if key in old(settings) then old(settings) else old(settings)[key := DefaultBasicSettings(key)]
      ensures s == settings[key]
      ensures s == (if key in old(settings) then old(settings)[key] else DefaultBasicSettings(key))
    {
      if key !in settings {
        settings := settings[key := DefaultBasicSettings(key)];
      }
      s := settings[key];
    }

    /** POST /api/settings/{key}: lazily created for any key, then updated with "true" as the true value. */
    method UpdateSettingsApi(key: string, f: BasicSettingsForm)
      requires Valid()
      modifies this`settings
      ensures Valid()
      ensures settings == old(settings)[key :=
        ApplyBasicSettings(if key in old(settings) then old(settings)[key] else DefaultBasicSettings(key), f, "true")]
    {
      var s := GetSettings(key);
      settings := settings[key := ApplyBasicSettings(s, f, "true")];
    }

    /** POST /settings?user=...: registered users only; "on" is the true value; activity refreshed. */
    method UpdateSettingsPage(username: Option<string>, f: BasicSettingsForm, now: int) returns (outcome: Outcome)
      requires Valid()
      modifies this`settings, this`users
      ensures Valid()
      ensures outcome == (if username.Some? && username.value in old(users) then Ok else RedirectHome)
      ensures outcome == RedirectHome ==> settings == old(settings) && users == old(users)
      ensures outcome == Ok ==>
        settings == old(settings)[username.value := ApplyBasicSettings(old(settings)[username.value], f, "on")]
        && users == old(users)[username.value := Touch(old(users)[username.value], now)]
    {
      if username.None? || username.value !in users {
        return RedirectHome;
      }
      var name := username.value;
      var s := GetSettings(name);
      settings := settings[name := ApplyBasicSettings(s, f, "on")];
      users := users[name := Touch(users[name], now)];
      outcome := Ok;
    }

    /**
     * POST /register: both fields required, name new; then User, profile
     * and default settings are stored together under the name.
     */
    method Register(username: Option<string>, displayName: Option<string>, now: int) returns (outcome: Outcome)
      requires Valid()
      modifies this`users, this`profiles, this`settings
      ensures Valid()
      ensures username.None? || displayName.None? ==> outcome == MissingParameter
      ensures username.Some? && displayName.Some? ==>
        outcome == (if username.value in old(users) then AlreadyExists else Ok)
      ensures outcome != Ok ==> users == old(users) && profiles == old(profiles) && settings == old(settings)
      ensures outcome == Ok ==>
        var name := username.value;
        users == old(users)[name := NewUser(name, displayName, now)]
        && profiles == old(profiles)[name := NewProfile(name)]
        && settings == old(settings)[name := DefaultBasicSettings(name)]
    {
      if username.None? || displayName.None? {
        return MissingParameter;
      }
      var name := username.value;
      if name in users {
        return AlreadyExists;
      }
      users := users[name := NewUser(name, displayName, now)];
      profiles := profiles[name := NewProfile(name)];
      settings := settings[name := DefaultBasicSettings(name)];
      outcome := Ok;
    }

    /** POST /login: a known user only has the activity time refreshed. */
    method Login(username: Option<string>, now: int) returns (outcome: Outcome)
      requires Valid()
      modifies this`users
      ensures Valid()
      ensures outcome == (if username.None? then MissingParameter
                          else if username.value !in old(users) then NotFound else Ok)
      ensures outcome != Ok ==> users == old(users)
      ensures outcome == Ok ==> users == old(users)[username.value := Touch(old(users)[username.value], now)]
    {
      if username.None? {
        return MissingParameter;
      }
      if username.value !in users {
        return NotFound;
      }
      users := users[username.value := Touch(users[username.value], now)];
      outcome := Ok;
    }

    /**
     * POST /dashboard?user=...: the trimmed password is the session id; a
     * blank or missing password is refused; only a new id creates a session
     * and counts it for the creator.
     */
    method CreateSession(username: Option<string>, password: Option<string>)
      returns (outcome: Outcome, sessionId: Option<string>)
      requires Valid()
      modifies this`sessions, this`users
      ensures Valid()
      ensures username.None? || username.value !in old(users) ==> outcome == RedirectHome
      ensures username.Some? && username.value in old(users) ==>
        outcome == (if password.None? || IsBlank(password.value) then MissingParameter else Ok)
      ensures outcome != Ok ==> sessionId.None? && sessions == old(sessions) && users == old(users)
      ensures outcome == Ok ==> sessionId == Some(Trim(password.value)) && sessionId.value in sessions
      ensures outcome == Ok && sessionId.value in old(sessions) ==> sessions == old(sessions) && users == old(users)
      ensures outcome == Ok && sessionId.value !in old(sessions) ==>
        sessions == old(sessions)[sessionId.value := []]
        && users == old(users)[username.value := CountSession(old(users)[username.value])]
    {
      if username.None? || username.value !in users {
        return RedirectHome, None;
      }
      if password.None? || IsBlank(password.value) {
        return MissingParameter, None;
      }
      var id := Trim(password.value);
      if id !in sessions {
        sessions := sessions[id := []];
        users := users[username.value := CountSession(users[username.value])];
      }
      outcome, sessionId := Ok, Some(id);
    }

    /** GET /chat/{session}: the session is created empty if absent; no user changes. */
    method OpenChat(sessionId: string)
      requires Valid()
      modifies this`sessions
      ensures Valid()
      ensures sessionId in sessions && sessions[sessionId] == old(LedgerOf(sessionId))
      ensures sessions == if sessionId in old(sessions) then old(sessions) else old(sessions)[sessionId := []]
    {
      if sessionId !in sessions {
        sessions := sessions[sessionId := []];
      }
    }
    /** GET /api/settings/...: GetSettings under the whole key that follows the route. */
    method GetSettingsAt(path: string) returns (s: BasicSettings)
      requires Valid() && Paths.SettingsRoute <= path
      modifies this`settings
      ensures Valid()
      ensures var key := Paths.SettingsKey(path);
        settings == if key in old(settings) then old(settings) else old(settings)[key := DefaultBasicSettings(key)]
      ensures var key := Paths.SettingsKey(path);
        s == (if key in old(settings) then old(settings)[key] else DefaultBasicSettings(key))
    {
      s := GetSettings(Paths.SettingsKey(path));
    }

    /** POST /api/settings/...: UpdateSettingsApi under the whole key that follows the route. */
    method UpdateSettingsApiAt(path: string, f: BasicSettingsForm)
      requires Valid() && Paths.SettingsRoute <= path
      modifies this`settings
      ensures Valid()
      ensures var key := Paths.SettingsKey(path);
        settings == old(settings)[key := ApplyBasicSettings(if key in old(settings) then old(settings)[key] else DefaultBasicSettings(key), f, "true")]
    {
      UpdateSettingsApi(Paths.SettingsKey(path), f);
    }
  }
}

=== FILE: form_params.dfy ===
/**
 * extractParam, the form/query parser both servers share: split on '&',
 * split each pair once on '=', return the URL-decoded value of the first
 * pair whose key matches.
 */
module FormParams {
  import opened Results
  import Seqs

  /** Every piece of `s` between occurrences of `sep`, empty pieces included. */
  function Pieces(s: string, sep: char): (r: seq<string>)
    ensures |r| >= 1
    ensures forall i :: 0 <= i < |r| ==> sep !in r[i]
  {
    if |s| == 0 then [[]]
    else
      var rest := Pieces(s[1..], sep);
      if s[0] == sep then [[]] + rest else [[s[0]] + rest[0]] + rest[1..]
  }

  /** The inverse of Pieces: glue the pieces back with `sep`. */
  function Join(ps: seq<string>, sep: char): string
    requires |ps| >= 1
  {
    if |ps| == 1 then ps[0] else ps[0] + [sep] + Join(ps[1..], sep)
  }

  lemma {:induction false} JoinPieces(s: string, sep: char)
    ensures Join(Pieces(s, sep), sep) == s
  {
    if |s| > 0 {
      var rest := Pieces(s[1..], sep);
      JoinPieces(s[1..], sep);
      if s[0] == sep {
        assert Pieces(s, sep)[1..] == rest;
      } else {
        var ps := Pieces(s, sep);
        if |rest| == 1 {
          assert ps == [[s[0]] + rest[0]];
        } else {
          assert ps[1..] == rest[1..];
          assert Join(rest, sep) == rest[0] + [sep] + Join(rest[1..], sep);
        }
      }
    }
  }

  lemma {:induction false} PiecesJoin(ps: seq<string>, sep: char)
    requires |ps| >= 1
    requires forall i :: 0 <= i < |ps| ==> sep !in ps[i]
    ensures Pieces(Join(ps, sep), sep) == ps
    decreases |ps|, |ps[0]|
  {
    var s := Join(ps, sep);
    if |ps[0]| == 0 {
      if |ps| > 1 {
        assert s == [sep] + Join(ps[1..], sep);
        assert s[1..] == Join(ps[1..], sep);
        PiecesJoin(ps[1..], sep);
      }
    } else {
      var ps' := [ps[0][1..]] + ps[1..];
      assert forall i :: 0 <= i < |ps'| ==> sep !in ps'[i] by {
        forall i | 0 <= i < |ps'| ensures sep !in ps'[i] {
          if i == 0 {
            assert forall c :: c in ps[0][1..] ==> c in ps[0];
          } else {
            assert ps'[i] == ps[i];
          }
        }
      }
      assert ps'[1..] == ps[1..];
      if |ps| == 1 {
        assert s[1..] == Join(ps', sep);
      } else {
        assert s[1..] == Join(ps', sep);
      }
      PiecesJoin(ps', sep);
      assert ps[0][0] == s[0];
      assert ps[0] == [s[0]] + ps'[0];
    }
  }

  /** Java's `split` with limit 0 drops the empty pieces at the end. */
  function DropTrailingEmpty(ps: seq<string>): (r: seq<string>)
    ensures |r| <= |ps| && r == ps[..|r|]
    ensures forall i :: |r| <= i < |ps| ==> ps[i] == []
    ensures r == [] || r[|r| - 1] != []
  {
    if |ps| > 0 && ps[|ps| - 1] == [] then DropTrailingEmpty(ps[..|ps| - 1]) else ps
  }

  /** Java's `s.split(sep)`: the whole input when there is no separator, otherwise the pieces without trailing empties. */
  function Split(s: string, sep: char): (r: seq<string>)
    ensures sep !in s ==> r == [s]
    ensures forall i :: 0 <= i < |r| ==> sep !in r[i]
    ensures sep in s ==> r == [] || r[|r| - 1] != []
  {
    if sep !in s then [s] else DropTrailingEmpty(Pieces(s, sep))
  }

  /** `query.split("&")`. */
  function SplitPairs(query: string): seq<string> {
    Split(query, '&')
  }

  /** `pair.split("=", 2)` when it yields two parts: the text before the first '=' and everything after it. */
  function KeyValue(pair: string): (r: Option<(string, string)>)
    ensures r.None? <==> '=' !in pair
    ensures r.Some? ==> '=' !in r.value.0 && pair == r.value.0 + "=" + r.value.1
    ensures r.Some? ==> |r.value.0| < |pair| && pair[|r.value.0|] == '='
  {
    match Seqs.FirstWhere(pair, (c: char) => c == '=')
    case None => None
    case Some(i) =>
      assert pair == pair[..i] + "=" + pair[i + 1..];
      Some((pair[..i], pair[i + 1..]))
  }

  /** The pair carries the parameter `name`. */
  predicate Names(pair: string, name: string) {
    KeyValue(pair).Some? && KeyValue(pair).value.0 == name
  }

  /** URLDecoder.decode, supplied by the caller; `None` stands for the exception, after which the raw text is returned. */
  function DecodeOr(raw: string, decode: string -> Option<string>): (r: string)
    ensures decode(raw).Some? ==> r == decode(raw).value
    ensures decode(raw).None? ==> r == raw
  {
    match decode(raw)
    case Some(d) => d
    case None => raw
  }

  /** The loop over pairs: the decoded value of the first pair that names `name`. */
  function Lookup(pairs: seq<string>, name: string, decode: string -> Option<string>): (r: Option<string>)
    ensures r.None? <==> forall i :: 0 <= i < |pairs| ==> !Names(pairs[i], name)
    ensures r.Some? ==>
      (exists i :: 0 <= i < |pairs| && Names(pairs[i], name) && r.value == DecodeOr(KeyValue(pairs[i]).value.1, decode))
  {
    if |pairs| == 0 then None
    else if Names(pairs[0], name) then Some(DecodeOr(KeyValue(pairs[0]).value.1, decode))
    else Lookup(pairs[1..], name, decode)
  }

  /** extractParam(query, param); a null query is `None`. */
  function ExtractParam(query: Option<string>, name: string, decode: string -> Option<string>): (r: Option<string>)
    ensures query.None? ==> r.None?
    ensures r.Some? <==> query.Some? && exists p :: p in SplitPairs(query.value) && Names(p, name)
  {
    if query.None? then None else Lookup(SplitPairs(query.value), name, decode)
  }

  /** Index of the first pair naming `name`. */
  function FirstNamed(pairs: seq<string>, name: string): Option<nat> {
    Seqs.FirstWhere(pairs, (p: string) => Names(p, name))
  }

  lemma {:induction false} LookupIsFirstNamed(pairs: seq<string>, name: string, decode: string -> Option<string>)
    ensures Lookup(pairs, name, decode) ==
      match FirstNamed(pairs, name)
      case None => None
      case Some(i) => Some(DecodeOr(KeyValue(pairs[i]).value.1, decode))
  {
    if |pairs| > 0 && !Names(pairs[0], name) {
      LookupIsFirstNamed(pairs[1..], name, decode);
    }
  }

  /** A final pair that does not name the parameter never changes the answer. */
  lemma {:induction false} LookupSnoc(ps: seq<string>, pair: string, name: string, decode: string -> Option<string>)
    requires !Names(pair, name)
    ensures Lookup(ps + [pair], name, decode) == Lookup(ps, name, decode)
  {
    if |ps| == 0 {
      assert [pair][1..] == [];
    } else {
      assert (ps + [pair])[1..] == ps[1..] + [pair];
      LookupSnoc(ps[1..], pair, name, decode);
    }
  }

  lemma {:induction false} LookupIgnoresTrailingEmpty(ps: seq<string>, name: string, decode: string -> Option<string>)
    ensures Lookup(DropTrailingEmpty(ps), name, decode) == Lookup(ps, name, decode)
    decreases |ps|
  {
    if |ps| > 0 && ps[|ps| - 1] == [] {
      var init := ps[..|ps| - 1];
      assert ps == init + [ps[|ps| - 1]];
      LookupIgnoresTrailingEmpty(init, name, decode);
      assert !Names([], name);
      LookupSnoc(init, [], name, decode);
    }
  }

  /**
   * What extractParam returns: nothing for a null query; otherwise the
   * decoded value of the first '&'-separated piece whose text before its
   * first '=' is `name`, or nothing when no piece is such.  Pieces without
   * '=' are skipped, and Java's dropping of trailing empty pieces makes no
   * difference.
   */
  lemma ExtractParamSpec(query: Option<string>, name: string, decode: string -> Option<string>)
    ensures query.None? ==> ExtractParam(query, name, decode).None?
    ensures query.Some? ==> (ExtractParam(query, name, decode) ==
      var ps := Pieces(query.value, '&');
      match FirstNamed(ps, name)
      case None => None
      case Some(i) => Some(DecodeOr(KeyValue(ps[i]).value.1, decode)))
  {
    if query.Some? {
      var q := query.value;
      var ps := Pieces(q, '&');
      if '&' !in q {
        PiecesWithoutSeparator(q, '&');
      } else {
        LookupIgnoresTrailingEmpty(ps, name, decode);
      }
      LookupIsFirstNamed(ps, name, decode);
    }
  }

  lemma {:induction false} PiecesWithoutSeparator(s: string, sep: char)
    requires sep !in s
    ensures Pieces(s, sep) == [s]
  {
    if |s| > 0 {
      assert sep !in s[1..] by {
        assert forall c :: c in s[1..] ==> c in s;
      }
      PiecesWithoutSeparator(s[1..], sep);
      assert [s[0]] + s[1..] == s;
    }
  }

  /** A value may itself contain '=': only the first '=' of a pair separates. */
  lemma ValueMayContainEquals(decode: string -> Option<string>)
    ensures ExtractParam(Some("a=b=c"), "a", decode) == Some(DecodeOr("b=c", decode))
  {
    var kv := KeyValue("a=b=c").value;
    assert "a=b=c"[|kv.0|] == '=';
    assert |kv.0| == 1;
    assert "a=b=c" == kv.0 + "=" + kv.1;
    assert kv.0 == "a=b=c"[..1] == "a";
    assert kv.1 == "a=b=c"[2..] == "b=c";
  }
}

=== FILE: identity.dfy ===
/**
 * The identity records both servers share field for field: User and
 * UserProfile, the partial profile update, and the per-field rules the
 * settings updates apply.
 */
module Identity {
  import opened Results
  import opened Text

  /** Timestamps (`new Date().toString()` in Java) are abstract instants supplied by the caller. */
  datatype User = User(
    username: string,
    displayName: string,
    email: Option<string>,
    createdAt: int,
    lastActive: int,
    totalMessages: nat,
    totalSessions: nat)

  /** The User constructor: display name falls back to the username, both counters start at zero. */
  function NewUser(username: string, displayName: Option<string>, now: int): (u: User)
    ensures u.username == username && u.email.None?
    ensures u.displayName == (if displayName.Some? then displayName.value else username)
    ensures u.totalMessages == 0 && u.totalSessions == 0
    ensures u.createdAt == now && u.lastActive == now
  {
    User(username, if displayName.Some? then displayName.value else username, None, now, now, 0, 0)
  }

  /** User.updateActivity. */
  function Touch(u: User, now: int): (r: User)
    ensures r.lastActive == now
    ensures r.username == u.username && r.displayName == u.displayName && r.email == u.email
    ensures r.createdAt == u.createdAt && r.totalMessages == u.totalMessages && r.totalSessions == u.totalSessions
  {
    u.(lastActive := now)
  }

  /** What a post by a registered author does to the author: activity time and one more message. */
  function CountMessage(u: User, now: int): (r: User)
    ensures r.totalMessages == u.totalMessages + 1
    ensures r.totalSessions == u.totalSessions && r.username == u.username && r.displayName == u.displayName
    ensures r.lastActive == now
    ensures r == u.(lastActive := r.lastActive, totalMessages := r.totalMessages)
  {
    Touch(u, now).(totalMessages := u.totalMessages + 1)
  }

  /** What creating a previously unknown session does to its creator. */
  function CountSession(u: User): (r: User)
    ensures r.totalSessions == u.totalSessions + 1
    ensures r.totalMessages == u.totalMessages && r.username == u.username && r.lastActive == u.lastActive
    ensures r == u.(totalSessions := r.totalSessions)
  {
    u.(totalSessions := u.totalSessions + 1)
  }

  datatype Profile = Profile(
    username: string,
    bio: string,
    profilePicture: string,
    location: string,
    website: string,
    phoneNumber: string)

  /** The UserProfile constructor: every free-text field empty. */
  function NewProfile(username: string): (p: Profile)
    ensures p.username == username
    ensures p.bio == "" && p.profilePicture == "" && p.location == "" && p.website == "" && p.phoneNumber == ""
  {
    Profile(username, "", "", "", "", "")
  }

  /** The fields a profile update may carry; `None` is a field absent from the request. */
  datatype ProfileForm = ProfileForm(
    displayName: Option<string>,
    email: Option<string>,
    bio: Option<string>,
    profilePicture: Option<string>,
    location: Option<string>,
    website: Option<string>,
    phoneNumber: Option<string>)

  /** A form that carries no field at all. */
  predicate IsEmptyForm(f: ProfileForm) {
    f.displayName.None? && f.email.None? && f.bio.None? && f.profilePicture.None?
    && f.location.None? && f.website.None? && f.phoneNumber.None?
  }

  /** `if (v != null) field = v;` */
  function Overwrite(v: Option<string>, current: string): string {
    if v.Some? then v.value else current
  }

  /** The User half of a profile update: display name and e-mail when present, then updateActivity. */
  function UpdateUser(u: User, f: ProfileForm, now: int): (r: User)
    ensures r.username == u.username && r.totalMessages == u.totalMessages && r.totalSessions == u.totalSessions
    ensures r.lastActive == now
    ensures f.displayName.None? ==> r.displayName == u.displayName
    ensures f.displayName.Some? ==> r.displayName == f.displayName.value
    ensures r.email == (if f.email.Some? then f.email else u.email)
    ensures r == u.(displayName := r.displayName, email := r.email, lastActive := r.lastActive)
  {
    Touch(u.(displayName := Overwrite(f.displayName, u.displayName),
             email := if f.email.Some? then f.email else u.email), now)
  }

  /** The UserProfile half of a profile update: each present field overwritten, each absent one kept. */
  function UpdateProfile(p: Profile, f: ProfileForm): (r: Profile)
    ensures r.username == p.username
    ensures f.bio.None? ==> r.bio == p.bio
    ensures f.profilePicture.None? ==> r.profilePicture == p.profilePicture
    ensures f.location.None? ==> r.location == p.location
    ensures f.website.None? ==> r.website == p.website
    ensures f.phoneNumber.None? ==> r.phoneNumber == p.phoneNumber
    ensures f.bio.Some? ==> r.bio == f.bio.value
    ensures f.profilePicture.Some? ==> r.profilePicture == f.profilePicture.value
    ensures f.location.Some? ==> r.location == f.location.value
    ensures f.website.Some? ==> r.website == f.website.value
    ensures f.phoneNumber.Some? ==> r.phoneNumber == f.phoneNumber.value
  {
    p.(bio := Overwrite(f.bio, p.bio),
       profilePicture := Overwrite(f.profilePicture, p.profilePicture),
       location := Overwrite(f.location, p.location),
       website := Overwrite(f.website, p.website),
       phoneNumber := Overwrite(f.phoneNumber, p.phoneNumber))
  }

  /** Submitting the same profile form twice has the effect of submitting it once. */
  lemma ProfileUpdateIdempotent(u: User, p: Profile, f: ProfileForm, now: int, later: int)
    ensures UpdateProfile(UpdateProfile(p, f), f) == UpdateProfile(p, f)
    ensures UpdateUser(UpdateUser(u, f, now), f, later) == UpdateUser(u, f, later)
  {
  }

  /** A form with no fields changes nothing but the activity time. */
  lemma EmptyProfileFormKeepsFields(u: User, p: Profile, f: ProfileForm, now: int)
    requires IsEmptyForm(f)
    ensures UpdateProfile(p, f) == p
    ensures UpdateUser(u, f, now) == Touch(u, now)
  {
  }

  // ---------------------------------------------------------------------
  // Per-field rules of the settings updates

  /** A boolean setting: when present it becomes true exactly for the `truthy` word ("true" or "on"). */
  function Flag(v: Option<string>, current: bool, truthy: string): (r: bool)
    ensures v.None? ==> r == current
    ensures v.Some? ==> (r <==> v.value == truthy)
  {
    if v.Some? then v.value == truthy else current
  }

  /** An integer setting without bounds: any parsable value replaces it, anything else keeps it. */
  function ParsedOr(v: Option<string>, current: int): (r: int)
    ensures v.None? || ParseInt(v.value).None? ==> r == current
    ensures v.Some? && ParseInt(v.value).Some? ==> r == ParseInt(v.value).value
  {
    if v.Some? && ParseInt(v.value).Some? then ParseInt(v.value).value else current
  }

  /**
   * An integer setting with bounds: a parsable value inside [lo, hi] replaces
   * it; a value outside is rejected, not clamped, and so is one that does
   * not parse.
   */
  function BoundedOr(v: Option<string>, current: int, lo: int, hi: int): (r: int)
    ensures r == current || (v.Some? && ParseInt(v.value) == Some(r) && lo <= r <= hi)
    ensures v.Some? && ParseInt(v.value).Some? && lo <= ParseInt(v.value).value <= hi ==> r == ParseInt(v.value).value
    ensures lo <= current <= hi ==> lo <= r <= hi
  {
    if v.Some? && ParseInt(v.value).Some? && lo <= ParseInt(v.value).value <= hi
    then ParseInt(v.value).value else current
  }

  /** An out-of-range value is rejected: the previous value stays. */
  lemma BoundedRejectsOutOfRange(v: string, current: int, lo: int, hi: int)
    requires ParseInt(v).Some? && !(lo <= ParseInt(v).value <= hi)
    ensures BoundedOr(Some(v), current, lo, hi) == current
  {
  }
}

=== FILE: ledger.dfy ===
/**
 * The message ledger of one chat session in Main.java: the Message record,
 * its edit / delete / reaction methods, reply snapshots, the GET list view
 * and MessageSearch.  A ledger is the session's list of messages; a message
 * changes only through the ledger, so it is modelled as a value updated at
 * its index.
 */
module Ledger {
  import opened Results
  import opened Text
  import Seqs

  const DeletedPlaceholder: string := "[Message deleted]"
  const AnonymousName: string := "Anonymous"

  /** Emoji token to count; Java keeps the counts in a ConcurrentHashMap<String, Integer>. */
  type Reactions = map<string, int>

  datatype Message = Message(
    id: string,
    content: string,
    sender: string,
    username: string,
    timestamp: int,
    deviceType: string,
    replyToId: Option<string>,
    replyToContent: Option<string>,
    replyToUsername: Option<string>,
    isEdited: bool,
    editedTimestamp: Option<int>,
    isDeleted: bool,
    reactions: Reactions)

  /** Every stored reaction count is at least one. */
  predicate ReactionsPositive(rs: Reactions) {
    forall e :: e in rs ==> rs[e] >= 1
  }

  predicate AllReactionsPositive(msgs: seq<Message>) {
    forall i :: 0 <= i < |msgs| ==> ReactionsPositive(msgs[i].reactions)
  }

  /** Message.addReaction: the count of `emoji` goes up by exactly one, starting from zero. */
  function AddReaction(rs: Reactions, emoji: string): (r: Reactions)
    ensures emoji in r && r[emoji] == (if emoji in rs then rs[emoji] else 0) + 1
    ensures forall e :: e != emoji ==> (e in r <==> e in rs)
    ensures forall e :: e != emoji && e in rs ==> r[e] == rs[e]
    ensures ReactionsPositive(rs) ==> ReactionsPositive(r)
  {
    rs[emoji := (if emoji in rs then rs[emoji] else 0) + 1]
  }

  /** Message.removeReaction: one less, and the key disappears instead of reaching zero; an absent emoji is ignored. */
  function RemoveReaction(rs: Reactions, emoji: string): (r: Reactions)
    ensures emoji !in rs ==> r == rs
    ensures emoji in rs && rs[emoji] <= 1 ==> emoji !in r
    ensures emoji in rs && rs[emoji] > 1 ==> emoji in r && r[emoji] == rs[emoji] - 1
    ensures forall e :: e != emoji ==> (e in r <==> e in rs)
    ensures forall e :: e != emoji && e in rs ==> r[e] == rs[e]
    ensures ReactionsPositive(rs) ==> ReactionsPositive(r)
  {
    if emoji !in rs then rs
    else if rs[emoji] - 1 <= 0 then rs - {emoji}
    else rs[emoji := rs[emoji] - 1]
  }

  /** On a ledger whose counts are all positive, a remove undoes the add before it. */
  lemma RemoveUndoesAdd(rs: Reactions, emoji: string)
    requires ReactionsPositive(rs)
    ensures RemoveReaction(AddReaction(rs, emoji), emoji) == rs
  {
    var r := RemoveReaction(AddReaction(rs, emoji), emoji);
    assert r.Keys == rs.Keys;
  }

  /** Appending a message whose counts are positive keeps every count of the ledger positive. */
  lemma AppendKeepsReactionsPositive(msgs: seq<Message>, m: Message)
    requires AllReactionsPositive(msgs) && ReactionsPositive(m.reactions)
    ensures AllReactionsPositive(msgs + [m])
  {
    forall i | 0 <= i < |msgs + [m]|
      ensures ReactionsPositive((msgs + [m])[i].reactions)
    {
      if i < |msgs| {
        assert (msgs + [m])[i] == msgs[i];
      }
    }
  }

  /** Three adds and two removes leave one; a further remove deletes the key rather than going negative. */
  lemma ReactionCountExample(rs: Reactions, emoji: string)
    requires emoji !in rs
    ensures var twice := RemoveReaction(RemoveReaction(AddReaction(AddReaction(AddReaction(rs, emoji), emoji), emoji), emoji), emoji);
      twice[emoji] == 1 && emoji !in RemoveReaction(twice, emoji)
  {
  }

  /** The reaction request's "add" / "remove" action; any other action leaves the message as it was. */
  function React(m: Message, emoji: string, action: string): (r: Message)
    ensures r.id == m.id && r.content == m.content && r.username == m.username && r.isDeleted == m.isDeleted
    ensures SameReply(r, m)
    ensures r == m.(reactions := r.reactions)
    ensures r.reactions == (if action == "add" then AddReaction(m.reactions, emoji)
                            else if action == "remove" then RemoveReaction(m.reactions, emoji)
                            else m.reactions)
  {
    if action == "add" then m.(reactions := AddReaction(m.reactions, emoji))
    else if action == "remove" then m.(reactions := RemoveReaction(m.reactions, emoji))
    else m
  }

  /** The parts of a message that record what it replied to. */
  predicate SameReply(a: Message, b: Message) {
    a.replyToId == b.replyToId && a.replyToContent == b.replyToContent && a.replyToUsername == b.replyToUsername
  }

  /** Message.editMessage: new text and the edited mark; a deleted message stays deleted. */
  function Edited(m: Message, newContent: string, now: int): (r: Message)
    ensures r.content == newContent && r.isEdited && r.editedTimestamp == Some(now)
    ensures r.isDeleted == m.isDeleted
    ensures r.id == m.id && r.username == m.username && r.reactions == m.reactions && SameReply(r, m)
    ensures r == m.(content := r.content, isEdited := r.isEdited, editedTimestamp := r.editedTimestamp)
  {
    m.(content := newContent, isEdited := true, editedTimestamp := Some(now))
  }

  /** Message.deleteMessage: soft delete keeps id, author and reactions and shows the placeholder. */
  function Deleted(m: Message): (r: Message)
    ensures r.isDeleted && r.content == DeletedPlaceholder
    ensures r.id == m.id && r.username == m.username && r.reactions == m.reactions && SameReply(r, m)
    ensures r.isEdited == m.isEdited
    ensures r == m.(content := r.content, isDeleted := r.isDeleted)
  {
    m.(isDeleted := true, content := DeletedPlaceholder)
  }

  lemma DeleteIdempotent(m: Message)
    ensures Deleted(Deleted(m)) == Deleted(m)
  {
  }

  /** MessageSearch.findMessageById on a ledger: the position of the first message with that id. */
  function FindById(msgs: seq<Message>, id: string): (r: Option<nat>)
    ensures r.Some? ==> r.value < |msgs| && msgs[r.value].id == id
    ensures r.Some? ==> forall j :: 0 <= j < r.value ==> msgs[j].id != id
    ensures r.None? <==> forall j :: 0 <= j < |msgs| ==> msgs[j].id != id
  {
    Seqs.FirstWhere(msgs, (m: Message) => m.id == id)
  }

  /** The message a POST replies to: a non-empty `replyToId` that names a message of the ledger, deleted or not. */
  function ReplyTarget(msgs: seq<Message>, replyToId: Option<string>): (r: Option<nat>)
    ensures r.Some? ==> r.value < |msgs| && replyToId.Some? && replyToId.value != ""
    ensures r.Some? ==> FindById(msgs, replyToId.value) == r
    ensures r.None? ==> replyToId.None? || replyToId.value == "" || FindById(msgs, replyToId.value).None?
  {
    if replyToId.Some? && replyToId.value != "" then FindById(msgs, replyToId.value) else None
  }

  /**
   * The message handleMessages appends for a POST: the four-argument
   * constructor, or the seven-argument one carrying a snapshot of the
   * replied-to message's content and author.  The device tag is used both
   * as sender and as device type; a missing username becomes "Anonymous".
   */
  function PostedMessage(msgs: seq<Message>, id: string, content: string, senderDevice: string,
                         username: Option<string>, replyToId: Option<string>, now: int): (m: Message)
    ensures m.id == id && m.content == content && m.sender == senderDevice && m.deviceType == senderDevice
    ensures m.username == (if username.Some? then username.value else AnonymousName)
    ensures m.timestamp == now
    ensures !m.isEdited && m.editedTimestamp.None? && !m.isDeleted && m.reactions == map[]
    ensures match ReplyTarget(msgs, replyToId)
      case Some(k) =>
        m.replyToId == replyToId && m.replyToContent == Some(msgs[k].content) && m.replyToUsername == Some(msgs[k].username)
      case None =>
        m.replyToId.None? && m.replyToContent.None? && m.replyToUsername.None?
  {
    var base := Message(id, content, senderDevice,
                        if username.Some? then username.value else AnonymousName,
                        now, senderDevice, None, None, None, false, None, false, map[]);
    match ReplyTarget(msgs, replyToId)
    case Some(k) => base.(replyToId := replyToId, replyToContent := Some(msgs[k].content),
                          replyToUsername := Some(msgs[k].username))
    case None => base
  }

  /**
   * Reply snapshots are copies: editing, deleting or reacting to any one
   * message (the replied-to one included) leaves every message's reply
   * fields as they were.
   */
  lemma ReplySnapshotsSurviveChanges(msgs: seq<Message>, k: nat, newContent: string, now: int,
                                     emoji: string, action: string)
    requires k < |msgs|
    ensures forall j :: 0 <= j < |msgs| ==> SameReply(msgs[k := Edited(msgs[k], newContent, now)][j], msgs[j])
    ensures forall j :: 0 <= j < |msgs| ==> SameReply(msgs[k := Deleted(msgs[k])][j], msgs[j])
    ensures forall j :: 0 <= j < |msgs| ==> SameReply(msgs[k := React(msgs[k], emoji, action)][j], msgs[j])
  {
  }

  // ---------------------------------------------------------------------
  // Read views

  predicate IsVisible(m: Message) {
    !m.isDeleted
  }

  /** The GET list view: every message that is not deleted, in insertion order. */
  function Visible(msgs: seq<Message>): (r: seq<Message>)
    ensures |r| <= |msgs|
  {
    Seqs.Filter(msgs, IsVisible)
  }

  /** The list view holds every message that is not deleted and nothing else. */
  lemma VisibleMembers(msgs: seq<Message>)
    ensures forall i :: 0 <= i < |Visible(msgs)| ==> Visible(msgs)[i] in msgs && !Visible(msgs)[i].isDeleted
    ensures forall i :: 0 <= i < |msgs| && !msgs[i].isDeleted ==> msgs[i] in Visible(msgs)
  {
    Seqs.FilterMembers(msgs, IsVisible);
  }

  /** Posting a message that is not deleted shows it last in the list view and changes nothing before it. */
  lemma {:induction false} VisibleAfterPost(msgs: seq<Message>, m: Message)
    requires !m.isDeleted
    ensures Visible(msgs + [m]) == Visible(msgs) + [m]
  {
    Seqs.FilterAppend(msgs, [m], IsVisible);
    assert [m][1..] == [];
  }

  /** After deleting the message at `k`, the list view is what was visible before and after it. */
  lemma {:induction false} VisibleAfterDelete(msgs: seq<Message>, k: nat)
    requires k < |msgs|
    ensures Visible(msgs[k := Deleted(msgs[k])]) == Visible(msgs[..k]) + Visible(msgs[k + 1..])
  {
    var after := msgs[k := Deleted(msgs[k])];
    assert !IsVisible(after[k]);
    Seqs.FilterSplitAt(after, k, IsVisible);
    assert after[..k] == msgs[..k];
    assert after[k + 1..] == msgs[k + 1..];
  }

  /** Editing never reveals a deleted message and keeps every other message where it was. */
  lemma {:induction false} VisibleAfterEdit(msgs: seq<Message>, k: nat, newContent: string, now: int)
    requires k < |msgs|
    ensures Visible(msgs[k := Edited(msgs[k], newContent, now)]) ==
      Visible(msgs[..k]) + (if msgs[k].isDeleted then [] else [Edited(msgs[k], newContent, now)]) + Visible(msgs[k + 1..])
    ensures msgs[k].isDeleted ==> Visible(msgs[k := Edited(msgs[k], newContent, now)]) == Visible(msgs)
  {
    var after := msgs[k := Edited(msgs[k], newContent, now)];
    Seqs.FilterSplitAt(after, k, IsVisible);
    Seqs.FilterSplitAt(msgs, k, IsVisible);
    assert after[..k] == msgs[..k];
    assert after[k + 1..] == msgs[k + 1..];
  }

  /** The lower-cased, trimmed query occurs in the lower-cased content or author. */
  predicate MatchesQuery(m: Message, lowerQuery: string) {
    Contains(Lower(m.content), lowerQuery) || Contains(Lower(m.username), lowerQuery)
  }

  /** The per-message test of searchMessages' loop. */
  function Hit(lowerQuery: string): Message -> bool {
    (m: Message) => !m.isDeleted && MatchesQuery(m, lowerQuery)
  }

  /**
   * MessageSearch.searchMessages on a ledger: nothing for a null or blank
   * query; otherwise the messages that are not deleted and match, in
   * insertion order.
   */
  function Search(msgs: seq<Message>, query: Option<string>): (r: seq<Message>)
    ensures |r| <= |msgs|
    ensures query.None? || Trim(query.value) == [] ==> r == []
  {
    if query.None? || Trim(query.value) == [] then []
    else
      Seqs.Filter(msgs, Hit(Trim(Lower(query.value))))
  }

  /** The results are exactly the messages that are not deleted and match the lower-cased, trimmed query. */
  lemma SearchMembers(msgs: seq<Message>, query: Option<string>)
    ensures forall i :: 0 <= i < |Search(msgs, query)| ==>
      Search(msgs, query)[i] in msgs && !Search(msgs, query)[i].isDeleted && MatchesQuery(Search(msgs, query)[i], Trim(Lower(query.value)))
    ensures query.Some? && Trim(query.value) != [] ==>
      forall i :: 0 <= i < |msgs| && !msgs[i].isDeleted && MatchesQuery(msgs[i], Trim(Lower(query.value))) ==> msgs[i] in Search(msgs, query)
  {
    if query.Some? && Trim(query.value) != [] {
      var lq := Trim(Lower(query.value));
      var r := Search(msgs, query);
      assert r == Seqs.Filter(msgs, Hit(lq));
      Seqs.FilterMembers(msgs, Hit(lq));
      forall i | 0 <= i < |r| ensures r[i] in msgs && !r[i].isDeleted && MatchesQuery(r[i], lq) {
        assert Hit(lq)(r[i]);
      }
      forall i | 0 <= i < |msgs| && !msgs[i].isDeleted && MatchesQuery(msgs[i], lq) ensures msgs[i] in r {
        assert Hit(lq)(msgs[i]);
      }
    }
  }

  /** Search keeps insertion order: a new message can only be added at the end of the results. */
  lemma {:induction false} SearchAfterPost(msgs: seq<Message>, m: Message, query: Option<string>)
    ensures Search(msgs + [m], query) ==
      Search(msgs, query) + (if query.Some? && Trim(query.value) != [] && !m.isDeleted && MatchesQuery(m, Trim(Lower(query.value))) then [m] else [])
  {
    if query.Some? && Trim(query.value) != [] {
      var hit := Hit(Trim(Lower(query.value)));
      Seqs.FilterAppend(msgs, [m], hit);
      assert [m][1..] == [];
      assert Seqs.Filter([m], hit) == (if hit(m) then [m] else []);
    }
  }

  /** Every search result is also in the list view. */
  lemma SearchWithinVisible(msgs: seq<Message>, query: Option<string>)
    ensures forall i :: 0 <= i < |Search(msgs, query)| ==> Search(msgs, query)[i] in Visible(msgs)
  {
    var r := Search(msgs, query);
    SearchMembers(msgs, query);
    VisibleMembers(msgs);
    forall i | 0 <= i < |r| ensures r[i] in Visible(msgs) {
      var j :| 0 <= j < |msgs| && msgs[j] == r[i];
      assert !msgs[j].isDeleted;
    }
  }
}

=== FILE: main_server.dfy ===
/**
 * The chat state of Main.java: the static maps `users`, `sessions`,
 * `profiles`, `settings`, `typingUsers` and `lastTypingTime`, and the state
 * changes ApiHandler and MainHandler make to them.  Each handler receives
 * the form fields extractParam found (`None` for a missing field), the
 * session id or username taken from the request path, and the current
 * time; it reports an Outcome instead of writing a response.
 */
module MainServer {
  import opened Results
  import opened Text
  import opened Identity
  import opened Ledger
  import opened Presence
  import Paths

  datatype Settings = Settings(
    username: string,
    notifications: bool,
    soundEnabled: bool,
    theme: string,
    language: string,
    compactMode: bool,
    readReceipts: bool,
    sessionTimeout: int,
    autoRefresh: bool,
    refreshInterval: int,
    showTimestamps: bool,
    showTypingIndicators: bool,
    maxMessagesDisplay: int)

  const MinRefreshInterval: int := 500
  const MaxRefreshInterval: int := 5000
  const MinMessagesDisplay: int := 20
  const MaxMessagesDisplay: int := 500

  /** The two range-checked settings lie in their ranges. */
  predicate InRange(s: Settings) {
    MinRefreshInterval <= s.refreshInterval <= MaxRefreshInterval
    && MinMessagesDisplay <= s.maxMessagesDisplay <= MaxMessagesDisplay
  }

  /** The UserSettings constructor. */
  function DefaultSettings(username: string): (s: Settings)
    ensures s.username == username && InRange(s)
    ensures s.notifications && s.soundEnabled && s.theme == "auto" && s.language == "english"
    ensures !s.compactMode && s.readReceipts && s.sessionTimeout == 60
    ensures s.autoRefresh && s.refreshInterval == 1000 && s.showTimestamps && s.showTypingIndicators
    ensures s.maxMessagesDisplay == 100
  {
    Settings(username, true, true, "auto", "english", false, true, 60, true, 1000, true, true, 100)
  }

  /** The fields a settings request may carry; `None` is a field absent from the request. */
  datatype SettingsForm = SettingsForm(
    notifications: Option<string>,
    soundEnabled: Option<string>,
    theme: Option<string>,
    language: Option<string>,
    compactMode: Option<string>,
    readReceipts: Option<string>,
    sessionTimeout: Option<string>,
    autoRefresh: Option<string>,
    refreshInterval: Option<string>,
    showTimestamps: Option<string>,
    showTypingIndicators: Option<string>,
    maxMessagesDisplay: Option<string>)

  /**
   * The settings POST of the API: the seven original fields, booleans true
   * only for "true"; the five newer fields are never read there.
   */
  function ApiSettingsUpdate(s: Settings, f: SettingsForm): (r: Settings)
    ensures r.username == s.username
    ensures r.autoRefresh == s.autoRefresh && r.refreshInterval == s.refreshInterval
    ensures r.showTimestamps == s.showTimestamps && r.showTypingIndicators == s.showTypingIndicators
    ensures r.maxMessagesDisplay == s.maxMessagesDisplay
    ensures InRange(s) ==> InRange(r)
    ensures r.notifications == Flag(f.notifications, s.notifications, "true")
    ensures r.soundEnabled == Flag(f.soundEnabled, s.soundEnabled, "true")
    ensures r.compactMode == Flag(f.compactMode, s.compactMode, "true")
    ensures r.readReceipts == Flag(f.readReceipts, s.readReceipts, "true")
    ensures r.theme == Overwrite(f.theme, s.theme) && r.language == Overwrite(f.language, s.language)
    ensures r.sessionTimeout == ParsedOr(f.sessionTimeout, s.sessionTimeout)
  {
    s.(notifications := Flag(f.notifications, s.notifications, "true"),
       soundEnabled := Flag(f.soundEnabled, s.soundEnabled, "true"),
       theme := Overwrite(f.theme, s.theme),
       language := Overwrite(f.language, s.language),
       compactMode := Flag(f.compactMode, s.compactMode, "true"),
       readReceipts := Flag(f.readReceipts, s.readReceipts, "true"),
       sessionTimeout := ParsedOr(f.sessionTimeout, s.sessionTimeout))
  }

  /**
   * The settings page POST: booleans true only for "on"; refreshInterval
   * accepted only in [500, 5000] and maxMessagesDisplay only in [20, 500],
   * anything else leaves them as they were; sessionTimeout takes any
   * parsable integer.
   */
  function PageSettingsUpdate(s: Settings, f: SettingsForm): (r: Settings)
    ensures r.username == s.username
    ensures InRange(s) ==> InRange(r)
    ensures r.refreshInterval == BoundedOr(f.refreshInterval, s.refreshInterval, MinRefreshInterval, MaxRefreshInterval)
    ensures r.maxMessagesDisplay == BoundedOr(f.maxMessagesDisplay, s.maxMessagesDisplay, MinMessagesDisplay, MaxMessagesDisplay)
    ensures r.sessionTimeout == ParsedOr(f.sessionTimeout, s.sessionTimeout)
    ensures r.notifications == Flag(f.notifications, s.notifications, "on")
    ensures r.soundEnabled == Flag(f.soundEnabled, s.soundEnabled, "on")
    ensures r.theme == Overwrite(f.theme, s.theme) && r.language == Overwrite(f.language, s.language)
    ensures r.compactMode == Flag(f.compactMode, s.compactMode, "on")
    ensures r.readReceipts == Flag(f.readReceipts, s.readReceipts, "on")
    ensures r.autoRefresh == Flag(f.autoRefresh, s.autoRefresh, "on")
    ensures r.showTimestamps == Flag(f.showTimestamps, s.showTimestamps, "on")
    ensures r.showTypingIndicators == Flag(f.showTypingIndicators, s.showTypingIndicators, "on")
  {
    s.(notifications := Flag(f.notifications, s.notifications, "on"),
       soundEnabled := Flag(f.soundEnabled, s.soundEnabled, "on"),
       theme := Overwrite(f.theme, s.theme),
       language := Overwrite(f.language, s.language),
       compactMode := Flag(f.compactMode, s.compactMode, "on"),
       readReceipts := Flag(f.readReceipts, s.readReceipts, "on"),
       sessionTimeout := ParsedOr(f.sessionTimeout, s.sessionTimeout),
       autoRefresh := Flag(f.autoRefresh, s.autoRefresh, "on"),
       refreshInterval := BoundedOr(f.refreshInterval, s.refreshInterval, MinRefreshInterval, MaxRefreshInterval),
       showTimestamps := Flag(f.showTimestamps, s.showTimestamps, "on"),
       showTypingIndicators := Flag(f.showTypingIndicators, s.showTypingIndicators, "on"),
       maxMessagesDisplay := BoundedOr(f.maxMessagesDisplay, s.maxMessagesDisplay, MinMessagesDisplay, MaxMessagesDisplay))
  }

  /** A form with no fields. */
  predicate IsEmptySettingsForm(f: SettingsForm) {
    f.notifications.None? && f.soundEnabled.None? && f.theme.None? && f.language.None?
    && f.compactMode.None? && f.readReceipts.None? && f.sessionTimeout.None? && f.autoRefresh.None?
    && f.refreshInterval.None? && f.showTimestamps.None? && f.showTypingIndicators.None?
    && f.maxMessagesDisplay.None?
  }

  /** Fields absent from the request are left unchanged, on both paths. */
  lemma EmptySettingsFormKeepsSettings(s: Settings, f: SettingsForm)
    requires IsEmptySettingsForm(f)
    ensures PageSettingsUpdate(s, f) == s && ApiSettingsUpdate(s, f) == s
  {
  }

  /** sessionTimeout has no range check: any 32-bit value the form carries is stored. */
  lemma SessionTimeoutUnbounded(s: Settings, f: SettingsForm, n: int)
    requires IntMin <= n <= IntMax
    requires f.sessionTimeout == Some(ShowInt(n))
    ensures PageSettingsUpdate(s, f).sessionTimeout == n
    ensures ApiSettingsUpdate(s, f).sessionTimeout == n
  {
    ParseIntShowInt(n);
  }

  class Server {
    var users: map<string, User>
    var sessions: map<string, seq<Message>>
    var profiles: map<string, Profile>
    var settings: map<string, Settings>
    var typingUsers: map<string, set<string>>
    var lastTypingTime: TypingTimes

    /**
     * Every record is stored under its own username; each registered user
     * has a profile and settings; the range-checked settings stay in range;
     * every stored reaction count is at least one.
     */
    ghost predicate Valid()
      reads this
    {
      && (forall u :: u in users ==> users[u].username == u)
      && (forall u :: u in profiles ==> profiles[u].username == u)
      && (forall u :: u in settings ==> settings[u].username == u && InRange(settings[u]))
      && users.Keys <= profiles.Keys
      && users.Keys <= settings.Keys
      && (forall sid :: sid in sessions ==> AllReactionsPositive(sessions[sid]))
    }

    constructor ()
      ensures Valid()
      ensures users == map[] && sessions == map[] && profiles == map[] && settings == map[]
      ensures typingUsers == map[] && lastTypingTime == map[]
    {
      users, sessions, profiles, settings := map[], map[], map[], map[];
      typingUsers, lastTypingTime := map[], map[];
    }

    /** The session's messages; a session never touched reads as empty. */
    function LedgerOf(sessionId: string): seq<Message>
      reads this
    {
      if sessionId in sessions then sessions[sessionId] else []
    }

    /** The get-or-create every message handler starts with. */
    method LedgerFor(sessionId: string) returns (msgs: seq<Message>)
      requires Valid()
      modifies this`sessions
      ensures Valid()
      ensures sessions == if sessionId in old(sessions) then old(sessions) else old(sessions)[sessionId := []]
      ensures msgs == sessions[sessionId] == old(LedgerOf(sessionId))
    {
      if sessionId !in sessions {
        sessions := sessions[sessionId := []];
      }
      msgs := sessions[sessionId];
    }

    /** GET /api/messages/{session}: creates the session if needed and lists the messages not deleted. */
    method GetMessages(sessionId: string) returns (visible: seq<Message>)
      requires Valid()
      modifies this`sessions
      ensures Valid()
      ensures sessions == if sessionId in old(sessions) then old(sessions) else old(sessions)[sessionId := []]
      ensures visible == Visible(old(LedgerOf(sessionId)))
    {
      var msgs := LedgerFor(sessionId);
      visible := Visible(msgs);
    }

    /**
     * POST /api/messages/{session}: with content and device present, appends
     * exactly one message at the end of the session (creating it if needed)
     * and, when the username is a registered user, counts the message for
     * that user.  Otherwise nothing changes.
     */
    method PostMessage(sessionId: string, content: Option<string>, senderDevice: Option<string>,
                       username: Option<string>, replyToId: Option<string>, id: string, now: int)
      returns (outcome: Outcome)
      requires Valid()
      modifies this`sessions, this`users
      ensures Valid()
      ensures outcome == (if content.Some? && senderDevice.Some? then Ok else MissingParameter)
      ensures outcome != Ok ==> sessions == old(sessions) && users == old(users)
      ensures outcome == Ok ==>
        sessions == old(sessions)[sessionId := old(LedgerOf(sessionId)) +
          [PostedMessage(old(LedgerOf(sessionId)), id, content.value, senderDevice.value, username, replyToId, now)]]
      ensures outcome == Ok ==>
        users == if username.Some? && username.value in old(users)
                 then old(users)[username.value := CountMessage(old(users)[username.value], now)]
                 else old(users)
      ensures users.Keys == old(users).Keys
      ensures forall u :: u in users ==>
        users[u].totalMessages == old(users)[u].totalMessages + (if outcome == Ok && username == Some(u) then 1 else 0)
    {
      if content.None? || senderDevice.None? {
        return MissingParameter;
      }
      var msgs := LedgerOf(sessionId);
      var msg := PostedMessage(msgs, id, content.value, senderDevice.value, username, replyToId, now);
      AppendKeepsReactionsPositive(msgs, msg);
      sessions := sessions[sessionId := msgs + [msg]];
      if username.Some? && username.value in users {
        users := users[username.value := CountMessage(users[username.value], now)];
      }
      outcome := Ok;
    }

    /** MessageSearch.searchMessages / GET /api/search/{session}: reads only. */
    function SearchMessages(sessionId: string, query: Option<string>): (r: seq<Message>)
      reads this
      ensures sessionId !in sessions ==> r == []
      ensures r == Search(LedgerOf(sessionId), query)
    {
      Search(LedgerOf(sessionId), query)
    }

    /**
     * POST /api/edit/{session}/{id}: content and username required; the first
     * message with that id must exist and be authored by the requester; then
     * only that message changes.
     */
    method EditMessage(sessionId: string, messageId: string, content: Option<string>,
                       username: Option<string>, now: int) returns (outcome: Outcome)
      requires Valid()
      modifies this`sessions
      ensures Valid()
      ensures content.None? || username.None? ==> outcome == MissingParameter
      ensures content.Some? && username.Some? ==>
        outcome == Authorize(old(LedgerOf(sessionId)), messageId, username.value)
      ensures outcome != Ok ==> sessions == old(sessions)
      ensures outcome == Ok ==>
        var k := FindById(old(LedgerOf(sessionId)), messageId).value;
        sessions == old(sessions)[sessionId := old(LedgerOf(sessionId))[k := Edited(old(LedgerOf(sessionId))[k], content.value, now)]]
    {
      if content.None? || username.None? {
        return MissingParameter;
      }
      var msgs := LedgerOf(sessionId);
      match FindById(msgs, messageId)
      case None =>
        outcome := NotFound;
      case Some(k) =>
        if msgs[k].username != username.value {
          return Unauthorized;
        }
        sessions := sessions[sessionId := msgs[k := Edited(msgs[k], content.value, now)]];
        outcome := Ok;
    }

    /** POST /api/delete/{session}/{id}: the same checks as an edit, then a soft delete of that one message. */
    method DeleteMessage(sessionId: string, messageId: string, username: Option<string>)
      returns (outcome: Outcome)
      requires Valid()
      modifies this`sessions
      ensures Valid()
      ensures username.None? ==> outcome == MissingParameter
      ensures username.Some? ==>
        outcome == Authorize(old(LedgerOf(sessionId)), messageId, username.value)
      ensures outcome != Ok ==> sessions == old(sessions)
      ensures outcome == Ok ==>
        var k := FindById(old(LedgerOf(sessionId)), messageId).value;
        sessions == old(sessions)[sessionId := old(LedgerOf(sessionId))[k := Deleted(old(LedgerOf(sessionId))[k])]]
    {
      if username.None? {
        return MissingParameter;
      }
      var msgs := LedgerOf(sessionId);
      match FindById(msgs, messageId)
      case None =>
        outcome := NotFound;
      case Some(k) =>
        if msgs[k].username != username.value {
          return Unauthorized;
        }
        sessions := sessions[sessionId := msgs[k := Deleted(msgs[k])]];
        outcome := Ok;
    }

    /** POST /api/reactions/{session}/{id}: no author check; an unknown action succeeds and changes nothing. */
    method ReactToMessage(sessionId: string, messageId: string, emoji: Option<string>, action: Option<string>)
      returns (outcome: Outcome)
      requires Valid()
      modifies this`sessions
      ensures Valid()
      ensures emoji.None? || action.None? ==> outcome == MissingParameter
      ensures emoji.Some? && action.Some? ==>
        outcome == (if FindById(old(LedgerOf(sessionId)), messageId).Some? then Ok else NotFound)
      ensures outcome != Ok ==> sessions == old(sessions)
      ensures outcome == Ok ==>
        var k := FindById(old(LedgerOf(sessionId)), messageId).value;
        sessions == old(sessions)[sessionId := old(LedgerOf(sessionId))[k := React(old(LedgerOf(sessionId))[k], emoji.value, action.value)]]
    {
      if emoji.None? || action.None? {
        return MissingParameter;
      }
      var msgs := LedgerOf(sessionId);
      match FindById(msgs, messageId)
      case None =>
        outcome := NotFound;
      case Some(k) =>
        sessions := sessions[sessionId := msgs[k := React(msgs[k], emoji.value, action.value)]];
        outcome := Ok;
    }

    /**
     * POST /api/typing/{session}: "start" records the user at `now`, "stop"
     * removes the user and the timestamp, any other action only stores the
     * set; then the session's expired entries are purged.
     */
    method SetTyping(sessionId: string, username: Option<string>, action: Option<string>, now: int)
      returns (outcome: Outcome)
      modifies this`typingUsers, this`lastTypingTime
      ensures outcome == (if username.Some? && action.Some? then Ok else MissingParameter)
      ensures outcome != Ok ==> typingUsers == old(typingUsers) && lastTypingTime == old(lastTypingTime)
      ensures outcome == Ok ==>
        (typingUsers, lastTypingTime) == TypingRequest(old(typingUsers), old(lastTypingTime), sessionId, username.value, action.value, now)
    {
      if username.None? || action.None? {
        return MissingParameter;
      }
      var user := username.value;
      ghost var before, times := typingUsers, lastTypingTime;
      var typing := if sessionId in typingUsers then typingUsers[sessionId] else {};
      var key := TypingKey(sessionId, user);
      if action.value == "start" {
        typing := typing + {user};
        lastTypingTime := lastTypingTime[key := now];
      } else if action.value == "stop" {
        typing := typing - {user};
        lastTypingTime := lastTypingTime - {key};
      }
      typingUsers := typingUsers[sessionId := typing];
      assert typing == StagedTyping(if sessionId in before then before[sessionId] else {}, user, action.value);
      assert lastTypingTime == StagedTimes(times, sessionId, user, action.value, now);
      ghost var staged := lastTypingTime;
      CleanupExpiredTyping(sessionId, now);
      assert typingUsers == before[sessionId := Survivors(typing, staged, sessionId, now)];
      outcome := Ok;
    }

    /**
     * cleanupExpiredTyping: walk the session's set and drop every user whose
     * timestamp is missing or older than 3000 ms, together with that
     * timestamp.
     */
    method CleanupExpiredTyping(sessionId: string, now: int)
      modifies this`typingUsers, this`lastTypingTime
      ensures sessionId !in old(typingUsers) ==> typingUsers == old(typingUsers) && lastTypingTime == old(lastTypingTime)
      ensures sessionId in old(typingUsers) ==>
        typingUsers == old(typingUsers)[sessionId := Survivors(old(typingUsers)[sessionId], old(lastTypingTime), sessionId, now)]
      ensures sessionId in old(typingUsers) ==>
        lastTypingTime == old(lastTypingTime) - ExpiredKeys(old(typingUsers)[sessionId], old(lastTypingTime), sessionId, now)
    {
      if sessionId !in typingUsers {
        return;
      }
      ghost var start := typingUsers[sessionId];
      ghost var times := lastTypingTime;
      var pending := typingUsers[sessionId];
      while pending != {}
        invariant pending <= start
        invariant sessionId in typingUsers
        invariant typingUsers == old(typingUsers)[sessionId := typingUsers[sessionId]]
        invariant typingUsers[sessionId] == set u | u in start && (u in pending || IsFresh(times, sessionId, u, now))
        invariant lastTypingTime == times - ExpiredKeys(start - pending, times, sessionId, now)
        decreases pending
      {
        var user :| user in pending;
        var key := TypingKey(sessionId, user);
        ExpiredKeysMiss(start - pending, times, sessionId, user, now);
        if key !in lastTypingTime || IsExpired(lastTypingTime[key], now) {
          typingUsers := typingUsers[sessionId := typingUsers[sessionId] - {user}];
          lastTypingTime := lastTypingTime - {key};
        }
        ExpiredKeysStep(start - pending, times, sessionId, user, now);
        pending := pending - {user};
        assert start - pending == (start - (pending + {user})) + {user};
      }
      assert start - pending == start;
      assert typingUsers[sessionId] == Survivors(start, times, sessionId, now);
    }
    /** GET /api/profile/{user}: unknown user is not found; otherwise the profile is created if missing. */
    method GetProfile(username: string) returns (outcome: Outcome, view: Option<(User, Profile)>)
      requires Valid()
      modifies this`profiles
      ensures Valid()
      ensures outcome == (if username in old(users) then Ok else NotFound)
      ensures outcome == NotFound ==> view.None? && profiles == old(profiles)
      ensures outcome == Ok ==> username in profiles && view == Some((users[username], profiles[username]))
      ensures outcome == Ok ==> profiles == if username in old(profiles) then old(profiles) else old(profiles)[username := NewProfile(username)]
    {
      if username !in users {
        return NotFound, None;
      }
      var profile := if username in profiles then profiles[username] else NewProfile(username);
      profiles := profiles[username := profile];
      outcome, view := Ok, Some((users[username], profile));
    }

    /**
     * The shared body of both profile updates, for a registered user: the
     * two User fields and the five profile fields present in the form are
     * overwritten, then the activity time is refreshed.
     */
    method ApplyProfileForm(username: string, f: ProfileForm, now: int)
      requires Valid() && username in users
      modifies this`users, this`profiles
      ensures Valid()
      ensures users == old(users)[username := UpdateUser(old(users)[username], f, now)]
      ensures profiles == old(profiles)[username := UpdateProfile(old(profiles)[username], f)]
    {
      var profile := if username in profiles then profiles[username] else NewProfile(username);
      profiles := profiles[username := UpdateProfile(profile, f)];
      users := users[username := UpdateUser(users[username], f, now)];
    }

    /** POST /api/profile/{user}: an unknown user is not found and nothing changes. */
    method UpdateProfileApi(username: string, f: ProfileForm, now: int) returns (outcome: Outcome)
      requires Valid()
      modifies this`users, this`profiles
      ensures Valid()
      ensures outcome == (if username in old(users) then Ok else NotFound)
      ensures outcome == NotFound ==> users == old(users) && profiles == old(profiles)
      ensures outcome == Ok ==>
        users == old(users)[username := UpdateUser(old(users)[username], f, now)]
        && profiles == old(profiles)[username := UpdateProfile(old(profiles)[username], f)]
    {
      if username !in users {
        return NotFound;
      }
      ApplyProfileForm(username, f, now);
      outcome := Ok;
    }

    /** POST /profile?user=...: a missing or unknown user is sent home with nothing changed. */
    method UpdateProfilePage(username: Option<string>, f: ProfileForm, now: int) returns (outcome: Outcome)
      requires Valid()
      modifies this`users, this`profiles
      ensures Valid()
      ensures outcome == (if username.Some? && username.value in old(users) then Ok else RedirectHome)
      ensures outcome == RedirectHome ==> users == old(users) && profiles == old(profiles)
      ensures outcome == Ok ==>
        users == old(users)[username.value := UpdateUser(old(users)[username.value], f, now)]
        && profiles == old(profiles)[username.value := UpdateProfile(old(profiles)[username.value], f)]
    {
      if username.None? || username.value !in users {
        return RedirectHome;
      }
      ApplyProfileForm(username.value, f, now);
      outcome := Ok;
    }

    /** The lazy creation of settings under any key, registered or not. */
    method SettingsFor(key: string) returns (s: Settings)
      requires Valid()
      modifies this`settings
      ensures Valid()
      ensures settings == if key in old(settings) then old(settings) else old(settings)[key := DefaultSettings(key)]
      ensures s == settings[key] && s.username == key && InRange(s)
    {
      if key !in settings {
        settings := settings[key := DefaultSettings(key)];
      }
      s := settings[key];
    }

    /** GET /api/settings/{key}: the stored settings, created with defaults when absent. */
    method GetSettings(key: string) returns (s: Settings)
      requires Valid()
      modifies this`settings
      ensures Valid()
      ensures settings == if key in old(settings) then old(settings) else old(settings)[key := DefaultSettings(key)]
      ensures s == (if key in old(settings) then old(settings)[key] else DefaultSettings(key))
    {
      s := SettingsFor(key);
    }

    /** POST /api/settings/{key}: lazily created, then the seven original fields updated from the form. */
    method UpdateSettingsApi(key: string, f: SettingsForm)
      requires Valid()
      modifies this`settings
      ensures Valid()
      ensures settings == old(settings)[key :=
        ApiSettingsUpdate(if key in old(settings) then old(settings)[key] else DefaultSettings(key), f)]
    {
      var s := SettingsFor(key);
      settings := settings[key := ApiSettingsUpdate(s, f)];
    }

    /**
     * POST /settings?user=...: only a registered user gets past the
     * redirect; the settings are created if missing, updated with the page
     * rules, and the user's activity time refreshed.
     */
    method UpdateSettingsPage(username: Option<string>, f: SettingsForm, now: int) returns (outcome: Outcome)
      requires Valid()
      modifies this`settings, this`users
      ensures Valid()
      ensures outcome == (if username.Some? && username.value in old(users) then Ok else RedirectHome)
      ensures outcome == RedirectHome ==> settings == old(settings) && users == old(users)
      ensures outcome == Ok ==>
        settings == old(settings)[username.value := PageSettingsUpdate(old(settings)[username.value], f)]
        && users == old(users)[username.value := Touch(old(users)[username.value], now)]
    {
      if username.None? || username.value !in users {
        return RedirectHome;
      }
      var name := username.value;
      var s := SettingsFor(name);
      settings := settings[name := PageSettingsUpdate(s, f)];
      users := users[name := Touch(users[name], now)];
      outcome := Ok;
    }

    /**
     * POST /register: both fields are required and the name must be new;
     * then a User with zero counters, an empty profile and default settings
     * are stored under the name, replacing any settings created for it
     * earlier.
     */
    method Register(username: Option<string>, displayName: Option<string>, now: int) returns (outcome: Outcome)
      requires Valid()
      modifies this`users, this`profiles, this`settings
      ensures Valid()
      ensures username.None? || displayName.None? ==> outcome == MissingParameter
      ensures username.Some? && displayName.Some? ==>
        outcome == (if username.value in old(users) then AlreadyExists else Ok)
      ensures outcome != Ok ==> users == old(users) && profiles == old(profiles) && settings == old(settings)
      ensures outcome == Ok ==>
        var name := username.value;
        users == old(users)[name := NewUser(name, displayName, now)]
        && profiles == old(profiles)[name := NewProfile(name)]
        && settings == old(settings)[name := DefaultSettings(name)]
    {
      if username.None? || displayName.None? {
        return MissingParameter;
      }
      var name := username.value;
      if name in users {
        return AlreadyExists;
      }
      users := users[name := NewUser(name, displayName, now)];
      profiles := profiles[name := NewProfile(name)];
      settings := settings[name := DefaultSettings(name)];
      outcome := Ok;
    }

    /** POST /login: a known user only has the activity time refreshed. */
    method Login(username: Option<string>, now: int) returns (outcome: Outcome)
      requires Valid()
      modifies this`users
      ensures Valid()
      ensures outcome == (if username.None? then MissingParameter
                          else if username.value !in old(users) then NotFound else Ok)
      ensures outcome != Ok ==> users == old(users)
      ensures outcome == Ok ==> users == old(users)[username.value := Touch(old(users)[username.value], now)]
    {
      if username.None? {
        return MissingParameter;
      }
      if username.value !in users {
        return NotFound;
      }
      users := users[username.value := Touch(users[username.value], now)];
      outcome := Ok;
    }

    /**
     * POST /dashboard?user=...: the trimmed password is the session id; a
     * blank or missing password is refused; a new id gets an empty session
     * and counts one session for the creator, an existing id changes nothing.
     */
    method CreateSession(username: Option<string>, password: Option<string>)
      returns (outcome: Outcome, sessionId: Option<string>)
      requires Valid()
      modifies this`sessions, this`users
      ensures Valid()
      ensures username.None? || username.value !in old(users) ==> outcome == RedirectHome
      ensures username.Some? && username.value in old(users) ==>
        outcome == (if password.None? || IsBlank(password.value) then MissingParameter else Ok)
      ensures outcome != Ok ==> sessionId.None? && sessions == old(sessions) && users == old(users)
      ensures outcome == Ok ==> sessionId == Some(Trim(password.value)) && sessionId.value in sessions
      ensures outcome == Ok && sessionId.value in old(sessions) ==> sessions == old(sessions) && users == old(users)
      ensures outcome == Ok && sessionId.value !in old(sessions) ==>
        sessions == old(sessions)[sessionId.value := []]
        && users == old(users)[username.value := CountSession(old(users)[username.value])]
    {
      if username.None? || username.value !in users {
        return RedirectHome, None;
      }
      if password.None? || IsBlank(password.value) {
        return MissingParameter, None;
      }
      var id := Trim(password.value);
      if id !in sessions {
        sessions := sessions[id := []];
        users := users[username.value := CountSession(users[username.value])];
      }
      outcome, sessionId := Ok, Some(id);
    }

    /** GET /chat/{session}: the session is created empty if absent; no user changes. */
    method OpenChat(sessionId: string)
      requires Valid()
      modifies this`sessions
      ensures Valid()
      ensures sessionId in sessions && sessions[sessionId] == old(LedgerOf(sessionId))
      ensures sessions == if sessionId in old(sessions) then old(sessions) else old(sessions)[sessionId := []]
    {
      var _ := LedgerFor(sessionId);
    }
    /** POST /api/typing/...: SetTyping under the whole id that follows the route. */
    method SetTypingAt(path: string, username: Option<string>, action: Option<string>, now: int)
      returns (outcome: Outcome)
      requires Paths.TypingRoute <= path
      modifies this`typingUsers, this`lastTypingTime
      ensures outcome == (if username.Some? && action.Some? then Ok else MissingParameter)
      ensures outcome != Ok ==> typingUsers == old(typingUsers) && lastTypingTime == old(lastTypingTime)
      ensures outcome == Ok ==>
        (typingUsers, lastTypingTime) == TypingRequest(old(typingUsers), old(lastTypingTime), Paths.TypingSessionId(path), username.value, action.value, now)
    {
      outcome := SetTyping(Paths.TypingSessionId(path), username, action, now);
    }

    /** GET /api/settings/...: GetSettings under the whole key that follows the route. */
    method GetSettingsAt(path: string) returns (s: Settings)
      requires Valid() && Paths.SettingsRoute <= path
      modifies this`settings
      ensures Valid()
      ensures var key := Paths.SettingsKey(path);
        settings == if key in old(settings) then old(settings) else old(settings)[key := DefaultSettings(key)]
      ensures var key := Paths.SettingsKey(path);
        s == (if key in old(settings) then old(settings)[key] else DefaultSettings(key))
    {
      s := GetSettings(Paths.SettingsKey(path));
    }

    /** POST /api/settings/...: UpdateSettingsApi under the whole key that follows the route. */
    method UpdateSettingsApiAt(path: string, f: SettingsForm)
      requires Valid() && Paths.SettingsRoute <= path
      modifies this`settings
      ensures Valid()
      ensures var key := Paths.SettingsKey(path);
        settings == old(settings)[key := ApiSettingsUpdate(if key in old(settings) then old(settings)[key] else DefaultSettings(key), f)]
    {
      UpdateSettingsApi(Paths.SettingsKey(path), f);
    }
  }

  /**
   * What an edit or delete reports once its fields are present: the first
   * message with the id must exist, and only its author may change it.
   */
  function Authorize(msgs: seq<Message>, messageId: string, username: string): (o: Outcome)
    ensures o == NotFound <==> FindById(msgs, messageId).None?
    ensures o == Ok <==> exists k :: 0 <= k < |msgs| && msgs[k].id == messageId && msgs[k].username == username
                                   && (forall j :: 0 <= j < k ==> msgs[j].id != messageId)
    ensures o in {Ok, NotFound, Unauthorized}
  {
    match FindById(msgs, messageId)
    case None => NotFound
    case Some(k) => if msgs[k].username == username then Ok else Unauthorized
  }

  /** Creating the same session twice counts it for the creator at most once. */
  method CreateSessionTwiceCountsOnce(server: Server, username: string, password: string)
    requires server.Valid() && username in server.users && !IsBlank(password)
    modifies server
    ensures server.Valid()
    ensures Trim(password) in server.sessions && username in server.users
    ensures server.users[username].totalSessions
         == old(server.users[username].totalSessions) + (if Trim(password) in old(server.sessions) then 0 else 1)
  {
    var first, id := server.CreateSession(Some(username), Some(password));
    var second, id2 := server.CreateSession(Some(username), Some(password));
    assert second == Ok && id2 == id;
  }

  /**
   * With the intended key, the settings API reaches the settings that
   * registration created for the user.
   */
  method RegisterThenUpdateSettings(server: Server, username: string, displayName: string,
                                    f: SettingsForm, now: int)
    requires server.Valid() && username !in server.users
    modifies server
    ensures server.Valid()
    ensures username in server.settings
    ensures server.settings[username] == ApiSettingsUpdate(DefaultSettings(username), f)
  {
    var registered := server.Register(Some(username), Some(displayName), now);
    Paths.SettingsKeyRecoversUsername(username);
    server.UpdateSettingsApiAt(Paths.SettingsRoute + username, f);
  }
}

=== FILE: paths.dfy ===
/**
 * How the handlers read ids out of the request path.  Each handler is
 * reached through a route prefix (`path.startsWith(...)` in the router) and
 * then cuts the path with `substring(n)` or `split("/")`.  Two of the
 * offsets do not match their prefix; both the code as written and the
 * intended reading are defined here, and the servers use the intended one.
 */
module Paths {
  import opened Results
  import FormParams

  /** Java's `s.substring(n)`: `None` where it throws StringIndexOutOfBoundsException. */
  function Substring(s: string, n: nat): (r: Option<string>)
    ensures r.Some? <==> n <= |s|
    ensures r.Some? ==> s[..n] + r.value == s
  {
    if n <= |s| then Some(s[n..]) else None
  }

  const MessagesRoute: string := "/api/messages/"
  const SearchRoute: string := "/api/search/"
  const TypingRoute: string := "/api/typing/"
  const ProfileRoute: string := "/api/profile/"
  const SettingsRoute: string := "/api/settings/"
  const ChatRoute: string := "/chat/"

  /**
   * Cutting `route + id` at `n` gives back `id` exactly when `n` is the
   * length of the route: any other offset gives a different string or
   * throws.
   */
  lemma {:induction false} SubstringRecoversIdIff(route: string, id: string, n: nat)
    ensures Substring(route + id, n) == Some(id) <==> n == |route|
  {
    var path := route + id;
    if n == |route| {
      assert path[n..] == id;
    } else if Substring(path, n).Some? {
      assert |Substring(path, n).value| == |path| - n != |id|;
    }
  }

  /** handleMessages in both servers: substring(14), the length of "/api/messages/". */
  function MessagesSessionId(path: string): (r: Option<string>)
    ensures r.Some? <==> |MessagesRoute| <= |path|
    ensures MessagesRoute <= path ==> r.Some? && MessagesRoute + r.value == path
  {
    Substring(path, 14)
  }

  /** handleSearch: substring(12), the length of "/api/search/". */
  function SearchSessionId(path: string): (r: Option<string>)
    ensures r.Some? <==> |SearchRoute| <= |path|
    ensures SearchRoute <= path ==> r.Some? && SearchRoute + r.value == path
  {
    Substring(path, 12)
  }

  /** handleProfile in both servers: substring(13), the length of "/api/profile/". */
  function ProfileUsername(path: string): (r: Option<string>)
    ensures r.Some? <==> |ProfileRoute| <= |path|
    ensures ProfileRoute <= path ==> r.Some? && ProfileRoute + r.value == path
  {
    Substring(path, 13)
  }

  /** handleChat in both servers: substring(6), the length of "/chat/". */
  function ChatSessionId(path: string): (r: Option<string>)
    ensures r.Some? <==> |ChatRoute| <= |path|
    ensures ChatRoute <= path ==> r.Some? && ChatRoute + r.value == path
  {
    Substring(path, 6)
  }

  /** These four offsets give back exactly the id that follows the route. */
  lemma ReadersRecoverIds(id: string)
    ensures MessagesSessionId(MessagesRoute + id) == Some(id)
    ensures SearchSessionId(SearchRoute + id) == Some(id)
    ensures ProfileUsername(ProfileRoute + id) == Some(id)
    ensures ChatSessionId(ChatRoute + id) == Some(id)
  {
    SubstringRecoversIdIff(MessagesRoute, id, 14);
    SubstringRecoversIdIff(SearchRoute, id, 12);
    SubstringRecoversIdIff(ProfileRoute, id, 13);
    SubstringRecoversIdIff(ChatRoute, id, 6);
  }

  /** handleTyping as written: substring(13) after a 12-character route. */
  function TypingSessionIdAsWritten(path: string): (r: Option<string>)
    ensures r.Some? <==> |TypingRoute| < |path|
    ensures TypingRoute <= path && r.Some? ==> TypingRoute + [path[|TypingRoute|]] + r.value == path
  {
    Substring(path, 13)
  }

  /**
   * As written, the typing handler drops the first character of the session
   * id, and throws for an empty one, so typing state is kept under a
   * different session than the one the client named.
   */
  lemma TypingSessionIdAsWrittenDropsFirstChar(c: char, id: string)
    ensures TypingSessionIdAsWritten(TypingRoute + [c] + id) == Some(id)
    ensures TypingSessionIdAsWritten(TypingRoute).None?
    ensures TypingSessionIdAsWritten(TypingRoute + "room1") == Some("oom1")
  {
    assert (TypingRoute + [c] + id)[13..] == id;
    assert (TypingRoute + "room1")[13..] == "oom1";
  }

  /** The intended reading: everything after "/api/typing/". */
  function TypingSessionId(path: string): (r: string)
    requires TypingRoute <= path
    ensures TypingRoute + r == path
  {
    path[|TypingRoute|..]
  }

  lemma TypingSessionIdRecoversId(id: string)
    ensures TypingSessionId(TypingRoute + id) == id
  {
    assert (TypingRoute + id)[|TypingRoute|..] == id;
  }

  /** handleSettings in both servers as written: substring(13) after a 14-character route. */
  function SettingsKeyAsWritten(path: string): (r: Option<string>)
    ensures r.Some? <==> |SettingsRoute| - 1 <= |path|
    ensures SettingsRoute <= path ==> r == Some("/" + path[|SettingsRoute|..])
  {
    assert SettingsRoute <= path ==> path[13..] == "/" + path[|SettingsRoute|..] by {
      if SettingsRoute <= path {
        assert path[13] == SettingsRoute[13] == '/';
      }
    }
    Substring(path, 13)
  }

  /**
   * As written, the settings API stores and reads settings under "/" plus
   * the username, never under the username that registration and the
   * settings page use.
   */
  lemma SettingsKeyAsWrittenKeepsSlash(username: string)
    ensures SettingsKeyAsWritten(SettingsRoute + username) == Some("/" + username)
    ensures SettingsKeyAsWritten(SettingsRoute + username) != Some(username)
  {
    assert (SettingsRoute + username)[13..] == "/" + username;
  }

  /** The intended reading: everything after "/api/settings/". */
  function SettingsKey(path: string): (r: string)
    requires SettingsRoute <= path
    ensures SettingsRoute + r == path
  {
    path[|SettingsRoute|..]
  }

  lemma SettingsKeyRecoversUsername(username: string)
    ensures SettingsKey(SettingsRoute + username) == username
  {
    assert (SettingsRoute + username)[|SettingsRoute|..] == username;
  }

  /**
   * handleReactions, handleMessageEdit and handleMessageDelete: the third
   * and fourth segments of `path.split("/")`; `None` is the "Invalid path"
   * answer for fewer than five parts.
   */
  function MessageRef(path: string): (r: Option<(string, string)>)
    ensures r.Some? <==> |FormParams.Split(path, '/')| >= 5
    ensures r.Some? ==> '/' !in r.value.0 && '/' !in r.value.1
  {
    var parts := FormParams.Split(path, '/');
    if |parts| < 5 then None else Some((parts[3], parts[4]))
  }

  /** A path "/api/{action}/{session}/{message}" yields its two ids when none contains '/' and the last is not empty. */
  lemma MessageRefRecoversIds(action: string, sessionId: string, messageId: string)
    requires '/' !in action && '/' !in sessionId && '/' !in messageId
    requires messageId != ""
    ensures MessageRef("/api/" + action + "/" + sessionId + "/" + messageId) == Some((sessionId, messageId))
  {
    var path := "/api/" + action + "/" + sessionId + "/" + messageId;
    var ps := ["", "api", action, sessionId, messageId];
    assert FormParams.Join(ps[4..], '/') == messageId;
    assert FormParams.Join(ps[3..], '/') == sessionId + "/" + messageId;
    assert FormParams.Join(ps[2..], '/') == action + "/" + sessionId + "/" + messageId;
    assert FormParams.Join(ps[1..], '/') == "api/" + action + "/" + sessionId + "/" + messageId;
    assert FormParams.Join(ps, '/') == path;
    FormParams.PiecesJoin(ps, '/');
    assert path[0] == '/';
    assert FormParams.DropTrailingEmpty(ps) == ps;
  }

  /** A path that ends right after the session id and its slash has fewer than five parts: it is refused as an invalid path. */
  lemma MessageRefNeedsMessageId(sessionId: string)
    requires '/' !in sessionId
    ensures MessageRef("/api/edit/" + sessionId + "/").None?
  {
    var path := "/api/edit/" + sessionId + "/";
    var ps := ["", "api", "edit", sessionId, ""];
    assert FormParams.Join(ps[4..], '/') == "";
    assert FormParams.Join(ps[3..], '/') == sessionId + "/";
    assert FormParams.Join(ps[2..], '/') == "edit/" + sessionId + "/";
    assert FormParams.Join(ps[1..], '/') == "api/edit/" + sessionId + "/";
    assert FormParams.Join(ps, '/') == path;
    FormParams.PiecesJoin(ps, '/');
    assert path[0] == '/';
    if sessionId == "" {
      assert FormParams.DropTrailingEmpty(ps) == ps[..3];
    } else {
      assert FormParams.DropTrailingEmpty(ps) == ps[..4];
    }
  }
}

=== FILE: presence.dfy ===
/**
 * Typing presence in Main.java: a per-session set of usernames
 * (`typingUsers`) and a map from a (session, user) key to the last "start"
 * time in milliseconds (`lastTypingTime`), aged out lazily.
 *
 * Main.java builds the key as the string sessionId + ":" + username, which
 * two different (session, user) pairs can share.  The model keys the map by
 * the pair itself; the second half of this module defines the request as
 * written, over the string key, shows where the two part, and proves that
 * they agree whenever no session id contains ':'.
 */
module Presence {
  import opened Results
  import Seqs

  /** Entries older than this many milliseconds are purged. */
  const TypingTimeoutMs: int := 3000

  /** The key of `lastTypingTime`: one entry per user per session. */
  type TypingTimes = map<(string, string), int>

  function TypingKey(sessionId: string, username: string): (string, string) {
    (sessionId, username)
  }

  /** The test of cleanupExpiredTyping: strictly more than 3000 ms old. */
  predicate IsExpired(timestamp: int, now: int)
    ensures IsExpired(timestamp, now) ==> timestamp < now
    ensures now <= timestamp ==> !IsExpired(timestamp, now)
  {
    now - timestamp > TypingTimeoutMs
  }

  /** The user has a timestamp for this session and it has not expired at `now`. */
  predicate IsFresh(times: TypingTimes, sessionId: string, username: string, now: int) {
    TypingKey(sessionId, username) in times && !IsExpired(times[TypingKey(sessionId, username)], now)
  }

  /** The users cleanupExpiredTyping keeps. */
  function Survivors(typing: set<string>, times: TypingTimes, sessionId: string, now: int): (r: set<string>)
    ensures r <= typing
    ensures forall u :: u in typing ==> (u in r <==> IsFresh(times, sessionId, u, now))
  {
    set u | u in typing && IsFresh(times, sessionId, u, now)
  }

  /** The timestamp keys cleanupExpiredTyping removes. */
  function ExpiredKeys(typing: set<string>, times: TypingTimes, sessionId: string, now: int): (r: set<(string, string)>)
    ensures forall k :: k in r ==> k.0 == sessionId
    ensures forall u :: TypingKey(sessionId, u) in r <==> u in typing && !IsFresh(times, sessionId, u, now)
  {
    set u | u in typing && !IsFresh(times, sessionId, u, now) :: TypingKey(sessionId, u)
  }

  /**
   * After the purge, every user left in the session's set has a timestamp
   * that is present and at most 3000 ms old.
   */
  lemma SurvivorsAreFresh(typing: set<string>, times: TypingTimes, sessionId: string, now: int)
    ensures forall u :: u in Survivors(typing, times, sessionId, now) ==>
      IsFresh(times - ExpiredKeys(typing, times, sessionId, now), sessionId, u, now)
  {
  }

  /** A user not yet visited has no key among those already purged. */
  lemma ExpiredKeysMiss(done: set<string>, times: TypingTimes, sessionId: string, user: string, now: int)
    requires user !in done
    ensures TypingKey(sessionId, user) !in ExpiredKeys(done, times, sessionId, now)
  {
  }

  /** Visiting one more user purges that user's key exactly when the user is not fresh. */
  lemma ExpiredKeysStep(done: set<string>, times: TypingTimes, sessionId: string, user: string, now: int)
    ensures ExpiredKeys(done + {user}, times, sessionId, now)
         == ExpiredKeys(done, times, sessionId, now)
            + (if IsFresh(times, sessionId, user, now) then {} else {TypingKey(sessionId, user)})
  {
  }

  // ---------------------------------------------------------------------
  // One typing request

  /** The session's set after the action: "start" adds the user, "stop" removes it, anything else keeps it. */
  function StagedTyping(typing: set<string>, user: string, action: string): (r: set<string>)
    ensures action == "start" ==> user in r
    ensures action == "stop" ==> user !in r
    ensures forall u :: u != user ==> (u in r <==> u in typing)
    ensures action != "start" && action != "stop" ==> r == typing
  {
    if action == "start" then typing + {user}
    else if action == "stop" then typing - {user}
    else typing
  }

  /** The timestamps after the action: "start" stamps the user at `now`, "stop" drops the stamp. */
  function StagedTimes(times: TypingTimes, sessionId: string, user: string, action: string, now: int): (r: TypingTimes)
    ensures action == "start" ==> TypingKey(sessionId, user) in r && r[TypingKey(sessionId, user)] == now
    ensures action == "stop" ==> TypingKey(sessionId, user) !in r
    ensures forall k :: k != TypingKey(sessionId, user) ==> (k in r <==> k in times)
    ensures forall k :: k != TypingKey(sessionId, user) && k in times ==> r[k] == times[k]
    ensures action != "start" && action != "stop" ==> r == times
  {
    if action == "start" then times[TypingKey(sessionId, user) := now]
    else if action == "stop" then times - {TypingKey(sessionId, user)}
    else times
  }

  /**
   * The whole effect of POST /api/typing/{session} on both maps: stage the
   * action, store the set, then purge the session's expired entries.
   */
  function TypingRequest(typingUsers: map<string, set<string>>, times: TypingTimes,
                         sessionId: string, user: string, action: string, now: int)
    : (r: (map<string, set<string>>, TypingTimes))
    ensures sessionId in r.0 && r.0 == typingUsers[sessionId := r.0[sessionId]]
    ensures forall u :: u in r.0[sessionId] ==> IsFresh(r.1, sessionId, u, now)
    ensures action == "start" ==>
      user in r.0[sessionId] && TypingKey(sessionId, user) in r.1 && r.1[TypingKey(sessionId, user)] == now
    ensures action == "stop" ==> user !in r.0[sessionId] && TypingKey(sessionId, user) !in r.1
    ensures var before := if sessionId in typingUsers then typingUsers[sessionId] else {};
      forall u :: (u != user || (action != "start" && action != "stop")) ==>
        (u in r.0[sessionId] <==> u in before && IsFresh(times, sessionId, u, now))
    ensures var before := if sessionId in typingUsers then typingUsers[sessionId] else {};
      forall u :: (u != user || (action != "start" && action != "stop")) ==> (TypingKey(sessionId, u) in r.1 <==>
        TypingKey(sessionId, u) in times && (u !in before || IsFresh(times, sessionId, u, now)))
    ensures forall k :: k in r.1 ==> k in times || k == TypingKey(sessionId, user)
    ensures forall k :: k in r.1 && k != TypingKey(sessionId, user) ==> r.1[k] == times[k]
    ensures forall k: (string, string) :: k.0 != sessionId ==> (k in r.1 <==> k in times)
  {
    var typing := StagedTyping(if sessionId in typingUsers then typingUsers[sessionId] else {}, user, action);
    var staged := StagedTimes(times, sessionId, user, action, now);
    SurvivorsAreFresh(typing, staged, sessionId, now);
    assert action == "start" ==> TypingKey(sessionId, user) !in ExpiredKeys(typing, staged, sessionId, now);
    (typingUsers[sessionId := Survivors(typing, staged, sessionId, now)],
     staged - ExpiredKeys(typing, staged, sessionId, now))
  }

  /**
   * A typing request in one session leaves every other session as it was:
   * its set, and whether any of its users is fresh at any time.
   */
  lemma TypingRequestKeepsOtherSessions(typingUsers: map<string, set<string>>, times: TypingTimes,
                                        sessionId: string, user: string, action: string, now: int,
                                        other: string, u: string, t: int)
    requires other != sessionId
    ensures var r := TypingRequest(typingUsers, times, sessionId, user, action, now);
      (other in r.0 <==> other in typingUsers)
      && (other in typingUsers ==> r.0[other] == typingUsers[other])
      && (IsFresh(r.1, other, u, t) <==> IsFresh(times, other, u, t))
  {
  }

  // ---------------------------------------------------------------------
  // The string key as Main.java writes it

  /** Main.java's key: sessionId + ":" + username. */
  function TypingKeyAsWritten(sessionId: string, username: string): (k: string)
    ensures |k| == |sessionId| + 1 + |username|
    ensures k[..|sessionId|] == sessionId && k[|sessionId|] == ':' && k[|sessionId| + 1..] == username
  {
    sessionId + ":" + username
  }

  predicate IsColon(c: char) {
    c == ':'
  }

  /** In the key of a session id without ':', the first ':' is the one after the session id. */
  lemma FirstColonOfKey(sessionId: string, username: string)
    requires ':' !in sessionId
    ensures Seqs.FirstWhere(TypingKeyAsWritten(sessionId, username), IsColon) == Some(|sessionId|)
  {
    var k := TypingKeyAsWritten(sessionId, username);
    var r := Seqs.FirstWhere(k, IsColon);
    assert IsColon(k[|sessionId|]);
    forall j | 0 <= j < |sessionId|
      ensures !IsColon(k[j])
    {
      assert k[j] == k[..|sessionId|][j] == sessionId[j];
    }
    assert r.Some?;
  }

  /**
   * The string key determines the pair within one session, and across
   * sessions whose ids contain no ':'; the purge of cleanupExpiredTyping
   * relies on the first.
   */
  lemma TypingKeyAsWrittenInjective(sessionId: string, u: string, otherSession: string, v: string)
    requires TypingKeyAsWritten(sessionId, u) == TypingKeyAsWritten(otherSession, v)
    requires sessionId == otherSession || (':' !in sessionId && ':' !in otherSession)
    ensures sessionId == otherSession && u == v
  {
    if sessionId != otherSession {
      FirstColonOfKey(sessionId, u);
      FirstColonOfKey(otherSession, v);
    }
  }

  /** Across sessions the string key is not unique: two different (session, user) pairs share it. */
  lemma TypingKeyCollides()
    ensures TypingKeyAsWritten("a", "b:c") == TypingKeyAsWritten("a:b", "c")
  {
  }

  /** IsFresh over the string-keyed map Main.java keeps. */
  predicate IsFreshAsWritten(times: map<string, int>, sessionId: string, username: string, now: int) {
    TypingKeyAsWritten(sessionId, username) in times && !IsExpired(times[TypingKeyAsWritten(sessionId, username)], now)
  }

  /** cleanupExpiredTyping as written: the users kept and the string keys removed. */
  function SurvivorsAsWritten(typing: set<string>, times: map<string, int>, sessionId: string, now: int): (r: set<string>)
    ensures r <= typing
    ensures forall u :: u in typing ==> (u in r <==> IsFreshAsWritten(times, sessionId, u, now))
  {
    set u | u in typing && IsFreshAsWritten(times, sessionId, u, now)
  }

  function ExpiredKeysAsWritten(typing: set<string>, times: map<string, int>, sessionId: string, now: int): (r: set<string>)
    ensures forall u :: u in typing && !IsFreshAsWritten(times, sessionId, u, now) ==> TypingKeyAsWritten(sessionId, u) in r
    ensures forall k :: k in r ==> exists u :: u in typing && !IsFreshAsWritten(times, sessionId, u, now) && k == TypingKeyAsWritten(sessionId, u)
  {
    set u | u in typing && !IsFreshAsWritten(times, sessionId, u, now) :: TypingKeyAsWritten(sessionId, u)
  }

  /** handleTyping's put / remove on the string-keyed map. */
  function StagedTimesAsWritten(times: map<string, int>, sessionId: string, user: string, action: string, now: int)
    : (r: map<string, int>)
    ensures action == "start" ==> TypingKeyAsWritten(sessionId, user) in r && r[TypingKeyAsWritten(sessionId, user)] == now
    ensures action == "stop" ==> TypingKeyAsWritten(sessionId, user) !in r
    ensures action != "start" && action != "stop" ==> r == times
    ensures forall k :: k != TypingKeyAsWritten(sessionId, user) ==> (k in r <==> k in times)
    ensures forall k :: k in r && k != TypingKeyAsWritten(sessionId, user) ==> r[k] == times[k]
  {
    if action == "start" then times[TypingKeyAsWritten(sessionId, user) := now]
    else if action == "stop" then times - {TypingKeyAsWritten(sessionId, user)}
    else times
  }

  /** POST /api/typing/{session} exactly as Main.java writes it, with the string key. */
  function TypingRequestAsWritten(typingUsers: map<string, set<string>>, times: map<string, int>,
                                  sessionId: string, user: string, action: string, now: int)
    : (r: (map<string, set<string>>, map<string, int>))
    ensures r.0.Keys == typingUsers.Keys + {sessionId}
    ensures forall s :: s in typingUsers && s != sessionId ==> r.0[s] == typingUsers[s]
    ensures forall u :: u in r.0[sessionId] ==> IsFreshAsWritten(r.1, sessionId, u, now)
    ensures forall k :: k in r.1 && k != TypingKeyAsWritten(sessionId, user) ==> k in times && r.1[k] == times[k]
  {
    var typing := StagedTyping(if sessionId in typingUsers then typingUsers[sessionId] else {}, user, action);
    var staged := StagedTimesAsWritten(times, sessionId, user, action, now);
    (typingUsers[sessionId := SurvivorsAsWritten(typing, staged, sessionId, now)],
     staged - ExpiredKeysAsWritten(typing, staged, sessionId, now))
  }

  /**
   * With the string key, user "b:c" stopping in session "a" deletes the
   * timestamp of user "c", still typing in session "a:b"; the next request
   * in "a:b" (here "d" starting) purges "c" as if it had stopped.  With the
   * pair key "c" stays.
   */
  lemma StopEvictsOtherSessionAsWritten(t: int, now: int)
    requires !IsExpired(t, now)
    ensures var typingUsers := map["a:b" := {"c"}];
      var times := map[TypingKeyAsWritten("a:b", "c") := t];
      var afterStop := TypingRequestAsWritten(typingUsers, times, "a", "b:c", "stop", now);
      var afterNext := TypingRequestAsWritten(afterStop.0, afterStop.1, "a:b", "d", "start", now);
      IsFreshAsWritten(times, "a:b", "c", now) && "c" !in afterNext.0["a:b"]
    ensures var typingUsers := map["a:b" := {"c"}];
      var times := map[TypingKey("a:b", "c") := t];
      var afterStop := TypingRequest(typingUsers, times, "a", "b:c", "stop", now);
      var afterNext := TypingRequest(afterStop.0, afterStop.1, "a:b", "d", "start", now);
      IsFresh(times, "a:b", "c", now) && "c" in afterNext.0["a:b"]
  {
    TypingKeyCollides();
    var typingUsers := map["a:b" := {"c"}];
    var times := map[TypingKeyAsWritten("a:b", "c") := t];
    var afterStop := TypingRequestAsWritten(typingUsers, times, "a", "b:c", "stop", now);
    assert afterStop.1 == map[];
    var staged := StagedTimesAsWritten(afterStop.1, "a:b", "d", "start", now);
    assert staged.Keys == {TypingKeyAsWritten("a:b", "d")};
    assert TypingKeyAsWritten("a:b", "c")[4..] != TypingKeyAsWritten("a:b", "d")[4..];
    assert !IsFreshAsWritten(staged, "a:b", "c", now);
  }

  // ---------------------------------------------------------------------
  // Where the two keys agree

  /** No session id among the keys contains ':'. */
  predicate ColonFreeSessions(times: TypingTimes) {
    forall k :: k in times ==> ':' !in k.0
  }

  /** The string-keyed map Main.java keeps for the same timestamps. */
  function Encode(times: TypingTimes): (r: map<string, int>)
    requires ColonFreeSessions(times)
    ensures forall k :: k in times ==> TypingKeyAsWritten(k.0, k.1) in r && r[TypingKeyAsWritten(k.0, k.1)] == times[k]
    ensures forall key :: key in r ==> exists k :: k in times && TypingKeyAsWritten(k.0, k.1) == key
  {
    EncodeIsFunctional(times);
    map k | k in times :: TypingKeyAsWritten(k.0, k.1) := times[k]
  }

  lemma EncodeIsFunctional(times: TypingTimes)
    requires ColonFreeSessions(times)
    ensures forall k, k' :: k in times && k' in times && TypingKeyAsWritten(k.0, k.1) == TypingKeyAsWritten(k'.0, k'.1) ==> k == k'
  {
    forall k, k' | k in times && k' in times && TypingKeyAsWritten(k.0, k.1) == TypingKeyAsWritten(k'.0, k'.1)
      ensures k == k'
    {
      TypingKeyAsWrittenInjective(k.0, k.1, k'.0, k'.1);
    }
  }

  /** The string key of a colon-free session is in the encoded map exactly when the pair is in the map. */
  lemma EncodeLookup(times: TypingTimes, sessionId: string, u: string)
    requires ColonFreeSessions(times) && ':' !in sessionId
    ensures TypingKeyAsWritten(sessionId, u) in Encode(times) <==> TypingKey(sessionId, u) in times
    ensures TypingKey(sessionId, u) in times ==> Encode(times)[TypingKeyAsWritten(sessionId, u)] == times[TypingKey(sessionId, u)]
  {
    if TypingKeyAsWritten(sessionId, u) in Encode(times) {
      var k :| k in times && TypingKeyAsWritten(k.0, k.1) == TypingKeyAsWritten(sessionId, u);
      TypingKeyAsWrittenInjective(k.0, k.1, sessionId, u);
    }
  }

  lemma FreshAgrees(times: TypingTimes, sessionId: string, u: string, now: int)
    requires ColonFreeSessions(times) && ':' !in sessionId
    ensures IsFreshAsWritten(Encode(times), sessionId, u, now) <==> IsFresh(times, sessionId, u, now)
  {
    EncodeLookup(times, sessionId, u);
  }

  lemma StagedAgrees(times: TypingTimes, sessionId: string, user: string, action: string, now: int)
    requires ColonFreeSessions(times) && ':' !in sessionId
    ensures ColonFreeSessions(StagedTimes(times, sessionId, user, action, now))
    ensures StagedTimesAsWritten(Encode(times), sessionId, user, action, now)
         == Encode(StagedTimes(times, sessionId, user, action, now))
  {
    if action == "start" {
      StartAgrees(times, sessionId, user, now);
    } else if action == "stop" {
      StopAgrees(times, sessionId, user);
    }
  }

  /** A string-keyed map holding exactly the encoded entries of `times` is its encoding. */
  lemma EncodeUnique(m: map<string, int>, times: TypingTimes)
    requires ColonFreeSessions(times)
    requires forall k :: k in times ==> TypingKeyAsWritten(k.0, k.1) in m && m[TypingKeyAsWritten(k.0, k.1)] == times[k]
    requires forall x :: x in m ==> exists k :: k in times && TypingKeyAsWritten(k.0, k.1) == x
    ensures m == Encode(times)
  {
    var e := Encode(times);
    forall x | x in m
      ensures x in e && m[x] == e[x]
    {
      var k :| k in times && TypingKeyAsWritten(k.0, k.1) == x;
    }
    forall x | x in e
      ensures x in m
    {
      var k :| k in times && TypingKeyAsWritten(k.0, k.1) == x;
    }
    assert m.Keys == e.Keys;
  }

  /** Distinct pairs whose sessions contain no ':' have distinct string keys. */
  lemma TypingKeyAsWrittenDistinct(sessionId: string, u: string, otherSession: string, v: string)
    requires ':' !in sessionId && ':' !in otherSession
    requires TypingKey(sessionId, u) != TypingKey(otherSession, v)
    ensures TypingKeyAsWritten(sessionId, u) != TypingKeyAsWritten(otherSession, v)
  {
    if TypingKeyAsWritten(sessionId, u) == TypingKeyAsWritten(otherSession, v) {
      TypingKeyAsWrittenInjective(sessionId, u, otherSession, v);
    }
  }

  lemma StartAgrees(times: TypingTimes, sessionId: string, user: string, now: int)
    requires ColonFreeSessions(times) && ':' !in sessionId
    ensures ColonFreeSessions(times[TypingKey(sessionId, user) := now])
    ensures Encode(times)[TypingKeyAsWritten(sessionId, user) := now] == Encode(times[TypingKey(sessionId, user) := now])
  {
    var staged := times[TypingKey(sessionId, user) := now];
    var m := Encode(times)[TypingKeyAsWritten(sessionId, user) := now];
    forall k | k in staged
      ensures TypingKeyAsWritten(k.0, k.1) in m && m[TypingKeyAsWritten(k.0, k.1)] == staged[k]
    {
      if k != TypingKey(sessionId, user) {
        TypingKeyAsWrittenDistinct(k.0, k.1, sessionId, user);
      }
    }
    forall x | x in m
      ensures exists k :: k in staged && TypingKeyAsWritten(k.0, k.1) == x
    {
      if x == TypingKeyAsWritten(sessionId, user) {
        assert TypingKey(sessionId, user) in staged;
      } else {
        var k :| k in times && TypingKeyAsWritten(k.0, k.1) == x;
        assert k in staged;
      }
    }
    EncodeUnique(m, staged);
  }

  lemma StopAgrees(times: TypingTimes, sessionId: string, user: string)
    requires ColonFreeSessions(times) && ':' !in sessionId
    ensures ColonFreeSessions(times - {TypingKey(sessionId, user)})
    ensures Encode(times) - {TypingKeyAsWritten(sessionId, user)} == Encode(times - {TypingKey(sessionId, user)})
  {
    var staged := times - {TypingKey(sessionId, user)};
    var m := Encode(times) - {TypingKeyAsWritten(sessionId, user)};
    forall k | k in staged
      ensures TypingKeyAsWritten(k.0, k.1) in m && m[TypingKeyAsWritten(k.0, k.1)] == staged[k]
    {
      TypingKeyAsWrittenDistinct(k.0, k.1, sessionId, user);
    }
    forall x | x in m
      ensures exists k :: k in staged && TypingKeyAsWritten(k.0, k.1) == x
    {
      var k :| k in times && TypingKeyAsWritten(k.0, k.1) == x;
      assert k in staged;
    }
    EncodeUnique(m, staged);
  }

  lemma PurgeAgrees(typing: set<string>, times: TypingTimes, sessionId: string, now: int)
    requires ColonFreeSessions(times) && ':' !in sessionId
    ensures SurvivorsAsWritten(typing, Encode(times), sessionId, now) == Survivors(typing, times, sessionId, now)
    ensures ColonFreeSessions(times - ExpiredKeys(typing, times, sessionId, now))
    ensures Encode(times) - ExpiredKeysAsWritten(typing, Encode(times), sessionId, now)
         == Encode(times - ExpiredKeys(typing, times, sessionId, now))
  {
    forall u | u in typing
      ensures IsFreshAsWritten(Encode(times), sessionId, u, now) <==> IsFresh(times, sessionId, u, now)
    {
      FreshAgrees(times, sessionId, u, now);
    }
    var gone := ExpiredKeys(typing, times, sessionId, now);
    var goneAsWritten := ExpiredKeysAsWritten(typing, Encode(times), sessionId, now);
    var staged := times - gone;
    var m := Encode(times) - goneAsWritten;
    forall k | k in times
      ensures TypingKeyAsWritten(k.0, k.1) in goneAsWritten <==> k in gone
    {
      if TypingKeyAsWritten(k.0, k.1) in goneAsWritten {
        var u :| u in typing && !IsFreshAsWritten(Encode(times), sessionId, u, now)
          && TypingKeyAsWritten(k.0, k.1) == TypingKeyAsWritten(sessionId, u);
        TypingKeyAsWrittenInjective(sessionId, u, k.0, k.1);
      }
      if k in gone {
        assert TypingKey(sessionId, k.1) == k;
      }
    }
    forall k | k in staged
      ensures TypingKeyAsWritten(k.0, k.1) in m && m[TypingKeyAsWritten(k.0, k.1)] == staged[k]
    {
    }
    forall x | x in m
      ensures exists k :: k in staged && TypingKeyAsWritten(k.0, k.1) == x
    {
      var k :| k in times && TypingKeyAsWritten(k.0, k.1) == x;
      assert k in staged;
    }
    EncodeUnique(m, staged);
  }

  /**
   * When no session id contains ':', the request as written and the request
   * over the pair key leave the same typing sets, and the string-keyed map is
   * the encoding of the pair-keyed one.
   */
  lemma TypingRequestAgreesAsWritten(typingUsers: map<string, set<string>>, times: TypingTimes,
                                     sessionId: string, user: string, action: string, now: int)
    requires ColonFreeSessions(times) && ':' !in sessionId
    ensures ColonFreeSessions(TypingRequest(typingUsers, times, sessionId, user, action, now).1)
    ensures var r := TypingRequest(typingUsers, times, sessionId, user, action, now);
      TypingRequestAsWritten(typingUsers, Encode(times), sessionId, user, action, now) == (r.0, Encode(r.1))
  {
    var typing := StagedTyping(if sessionId in typingUsers then typingUsers[sessionId] else {}, user, action);
    StagedAgrees(times, sessionId, user, action, now);
    PurgeAgrees(typing, StagedTimes(times, sessionId, user, action, now), sessionId, now);
  }
}

=== FILE: results.dfy ===
/** Small wrapper types shared by every module of the chat model. */
module Results {

  /** A Java reference that may be null: `None` stands for null. */
  datatype Option<+T> = None | Some(value: T)

  /**
   * What a request handler reports back to the HTTP layer.  Only the
   * state-relevant distinction is kept; status codes and page bodies are not
   * part of the model.
   */
  datatype Outcome =
    | Ok                // 200, or the 302 redirect that follows a registration
    | MissingParameter  // 400: a required form field was absent (or blank)
    | NotFound          // 404: unknown user or unknown message id
    | Unauthorized      // 403: requester is not the author of the message
    | AlreadyExists     // 400 "Username already exists"
    | RedirectHome      // 302 to "/": a page handler was called for an unknown user
}

=== FILE: seqs.dfy ===
/**
 * The two list idioms the Java code repeats by hand: "the first element that
 * matches" (a for loop that returns early) and "the matching elements, in
 * order" (a for loop that appends to a fresh ArrayList).
 */
module Seqs {
  import opened Results

  /** Index of the first element of `s` satisfying `p`, if any. */
  function FirstWhere<T>(s: seq<T>, p: T -> bool): (r: Option<nat>)
    ensures r.Some? ==> r.value < |s| && p(s[r.value])
    ensures r.Some? ==> forall j :: 0 <= j < r.value ==> !p(s[j])
    ensures r.None? <==> forall j :: 0 <= j < |s| ==> !p(s[j])
  {
    if |s| == 0 then None
    else if p(s[0]) then Some(0)
    else match FirstWhere(s[1..], p)
      case None => None
      case Some(k) => Some(k + 1)
  }

  /** The elements of `s` satisfying `p`, in their original order. */
  function Filter<T>(s: seq<T>, p: T -> bool): (r: seq<T>)
    ensures |r| <= |s|
  {
    if |s| == 0 then []
    else (if p(s[0]) then [s[0]] else []) + Filter(s[1..], p)
  }

  /** Filter keeps exactly the elements satisfying `p`. */
  lemma {:induction false} FilterMembers<T>(s: seq<T>, p: T -> bool)
    ensures forall i :: 0 <= i < |Filter(s, p)| ==> Filter(s, p)[i] in s && p(Filter(s, p)[i])
    ensures forall i :: 0 <= i < |s| && p(s[i]) ==> s[i] in Filter(s, p)
  {
    if |s| > 0 {
      FilterMembers(s[1..], p);
      var head := if p(s[0]) then [s[0]] else [];
      var r := Filter(s, p);
      assert r == head + Filter(s[1..], p);
      forall i | 0 <= i < |r| ensures r[i] in s && p(r[i]) {
        if i >= |head| {
          assert r[i] == Filter(s[1..], p)[i - |head|];
          assert r[i] in s[1..];
        }
      }
      forall i | 0 <= i < |s| && p(s[i]) ensures s[i] in r {
        if i > 0 {
          assert s[i] == s[1..][i - 1];
        }
      }
    }
  }

  /** Filtering distributes over concatenation: order is kept. */
  lemma {:induction false} FilterAppend<T>(a: seq<T>, b: seq<T>, p: T -> bool)
    ensures Filter(a + b, p) == Filter(a, p) + Filter(b, p)
  {
    if |a| == 0 {
      assert a + b == b;
    } else {
      var head := if p(a[0]) then [a[0]] else [];
      assert (a + b)[0] == a[0];
      assert (a + b)[1..] == a[1..] + b;
      calc {
        Filter(a + b, p);
        head + Filter(a[1..] + b, p);
        { FilterAppend(a[1..], b, p); }
        head + (Filter(a[1..], p) + Filter(b, p));
        (head + Filter(a[1..], p)) + Filter(b, p);
        Filter(a, p) + Filter(b, p);
      }
    }
  }

  /** Filtering a ledger around one position. */
  lemma {:induction false} FilterSplitAt<T>(s: seq<T>, k: nat, p: T -> bool)
    requires k < |s|
    ensures Filter(s, p) == Filter(s[..k], p) + (if p(s[k]) then [s[k]] else []) + Filter(s[k + 1..], p)
  {
    assert s == s[..k] + ([s[k]] + s[k + 1..]);
    FilterAppend(s[..k], [s[k]] + s[k + 1..], p);
    FilterAppend([s[k]], s[k + 1..], p);
    assert [s[k]][1..] == [];
  }
}

=== FILE: text.dfy ===
/**
 * The java.lang.String and java.lang.Integer operations the chat engine
 * relies on: trim, toLowerCase, contains and Integer.parseInt.
 */
module Text {
  import opened Results

  /** String.trim removes every leading and trailing character up to U+0020. */
  predicate IsTrimmable(c: char) {
    c <= ' '
  }

  predicate IsBlank(s: string) {
    forall k :: 0 <= k < |s| ==> IsTrimmable(s[k])
  }

  function TrimStart(s: string): (r: string)
    ensures |r| <= |s| && r == s[|s| - |r|..]
    ensures forall k :: 0 <= k < |s| - |r| ==> IsTrimmable(s[k])
    ensures r == [] || !IsTrimmable(r[0])
  {
    if |s| > 0 && IsTrimmable(s[0]) then TrimStart(s[1..]) else s
  }

  function TrimEnd(s: string): (r: string)
    ensures |r| <= |s| && r == s[..|r|]
    ensures forall k :: |r| <= k < |s| ==> IsTrimmable(s[k])
    ensures r == [] || !IsTrimmable(r[|r| - 1])
  {
    if |s| > 0 && IsTrimmable(s[|s| - 1]) then TrimEnd(s[..|s| - 1]) else s
  }

  /** `q` occurs in `s` starting at index `i`. */
  predicate OccursAt(s: string, q: string, i: nat) {
    i + |q| <= |s| && s[i..i + |q|] == q
  }

  /**
   * String.trim(): a middle slice of `s` that neither starts nor ends with a
   * trimmable character, and everything outside it is trimmable.
   */
  function Trim(s: string): (r: string)
    ensures exists i: nat :: OccursAt(s, r, i) && IsBlank(s[..i]) && IsBlank(s[i + |r|..])
    ensures r == [] || (!IsTrimmable(r[0]) && !IsTrimmable(r[|r| - 1]))
  {
    var t := TrimStart(s);
    var r := TrimEnd(t);
    TrimSlice(s, t, r);
    r
  }

  /** A blank-bounded prefix of a blank-bounded suffix of `s` occurs in `s` where the suffix starts. */
  lemma TrimSlice(s: string, t: string, r: string)
    requires |t| <= |s| && t == s[|s| - |t|..]
    requires forall k :: 0 <= k < |s| - |t| ==> IsTrimmable(s[k])
    requires |r| <= |t| && r == t[..|r|]
    requires forall k :: |r| <= k < |t| ==> IsTrimmable(t[k])
    ensures var i := |s| - |t|; OccursAt(s, r, i) && IsBlank(s[..i]) && IsBlank(s[i + |r|..])
  {
    var i := |s| - |t|;
    assert s[i..i + |r|] == t[..|r|];
    var tail := s[i + |r|..];
    forall k | 0 <= k < |tail|
      ensures IsTrimmable(tail[k])
    {
      assert tail[k] == t[|r| + k];
    }
  }

  /** `s.trim().isEmpty()` holds exactly for strings made only of trimmable characters. */
  lemma TrimEmptyIffBlank(s: string)
    ensures Trim(s) == [] <==> IsBlank(s)
  {
    var t := TrimStart(s);
    if Trim(s) != [] {
      var r := Trim(s);
      var i: nat :| OccursAt(s, r, i);
      assert s[i] == r[0];
    }
  }

  /** Trimming a trimmed string changes nothing. */
  lemma TrimIdempotent(s: string)
    ensures Trim(Trim(s)) == Trim(s)
  {
    var r := Trim(s);
    if r != [] {
      assert TrimStart(r) == r;
      assert TrimEnd(r) == r;
    }
  }

  /** Character.toLowerCase restricted to ASCII letters. */
  function LowerChar(c: char): char {
    if 'A' <= c <= 'Z' then (c as int + 32) as char else c
  }

  /** String.toLowerCase, character by character. */
  function Lower(s: string): (r: string)
    ensures |r| == |s|
    ensures forall i :: 0 <= i < |s| ==> r[i] == LowerChar(s[i])
  {
    if |s| == 0 then [] else [LowerChar(s[0])] + Lower(s[1..])
  }

  /** Lower-casing twice is lower-casing once. */
  lemma LowerIdempotent(s: string)
    ensures Lower(Lower(s)) == Lower(s)
  {
  }

  /** String.contains: `q` occurs somewhere in `s` (the empty string occurs everywhere). */
  predicate Contains(s: string, q: string)
    ensures q <= s ==> Contains(s, q)
    ensures Contains(s, q) ==> |q| <= |s|
    decreases |s|
  {
    q <= s || (|s| > 0 && Contains(s[1..], q))
  }

  /** Contains agrees with the reference reading "some slice of `s` equals `q`". */
  lemma {:induction false} ContainsIffSlice(s: string, q: string)
    ensures Contains(s, q) <==> exists i: nat :: OccursAt(s, q, i)
    decreases |s|
  {
    if q <= s {
      assert OccursAt(s, q, 0);
    } else if |s| == 0 {
    } else {
      ContainsIffSlice(s[1..], q);
      if Contains(s[1..], q) {
        var i: nat :| OccursAt(s[1..], q, i);
        assert s[1..][i..i + |q|] == s[i + 1..i + 1 + |q|];
        assert OccursAt(s, q, i + 1);
      }
      if exists i: nat :: OccursAt(s, q, i) {
        var i: nat :| OccursAt(s, q, i);
        assert i != 0;
        assert s[1..][i - 1..i - 1 + |q|] == s[i..i + |q|];
        assert OccursAt(s[1..], q, i - 1);
      }
    }
  }

  // ---------------------------------------------------------------------
  // Integer.parseInt (radix 10)

  const IntMin: int := -0x8000_0000
  const IntMax: int := 0x7fff_ffff

  predicate IsDigit(c: char) {
    '0' <= c <= '9'
  }

  predicate AllDigits(s: string) {
    forall k :: 0 <= k < |s| ==> IsDigit(s[k])
  }

  function DigitsValue(s: string): nat
    requires AllDigits(s)
  {
    if |s| == 0 then 0 else DigitsValue(s[..|s| - 1]) * 10 + (s[|s| - 1] as int - '0' as int)
  }

  /** The text after an optional leading '-' or '+'. */
  function Unsigned(s: string): (d: string)
    ensures |d| <= |s|
    ensures |s| > 0 && (s[0] == '-' || s[0] == '+') ==> d == s[1..]
    ensures |s| == 0 || (s[0] != '-' && s[0] != '+') ==> d == s
  {
    if |s| > 0 && (s[0] == '-' || s[0] == '+') then s[1..] else s
  }

  /** The value the digits stand for, negated after a leading '-'. */
  function SignedValue(s: string): int
    requires AllDigits(Unsigned(s))
  {
    if |s| > 0 && s[0] == '-' then -(DigitsValue(Unsigned(s)) as int) else DigitsValue(Unsigned(s))
  }

  /**
   * Integer.parseInt(s): an optional '-' or '+' followed by at least one
   * decimal digit, whose value fits in 32 bits.  `None` stands for the
   * NumberFormatException every caller catches.
   */
  function ParseInt(s: string): (r: Option<int>)
    ensures r.Some? ==> IntMin <= r.value <= IntMax
    ensures r.Some? <==> (|Unsigned(s)| > 0 && AllDigits(Unsigned(s)) && IntMin <= SignedValue(s) <= IntMax)
    ensures r.Some? ==> r.value == SignedValue(s)
  {
    if |s| == 0 then None
    else
      var digits := Unsigned(s);
      if |digits| == 0 || !AllDigits(digits) then None
      else
        var v: int := if s[0] == '-' then -(DigitsValue(digits) as int) else DigitsValue(digits);
        if IntMin <= v <= IntMax then Some(v) else None
  }

  function DigitChar(d: nat): char
    requires d < 10
  {
    ('0' as int + d) as char
  }

  /** Decimal rendering of a natural number, as Integer.toString prints it. */
  function ShowNat(n: nat): (r: string)
    ensures |r| > 0 && AllDigits(r)
  {
    if n < 10 then [DigitChar(n)] else ShowNat(n / 10) + [DigitChar(n % 10)]
  }

  /** Integer.toString: a '-' sign for negative values, then the digits. */
  function ShowInt(n: int): string {
    if n < 0 then "-" + ShowNat(-n) else ShowNat(n)
  }

  lemma {:induction false} DigitsValueOfShowNat(n: nat)
    ensures DigitsValue(ShowNat(n)) == n
  {
    if n >= 10 {
      var s := ShowNat(n);
      assert s[..|s| - 1] == ShowNat(n / 10);
      DigitsValueOfShowNat(n / 10);
    }
  }

  /** A setting printed into a page and posted back is read as the same number. */
  lemma ParseIntShowInt(n: int)
    requires IntMin <= n <= IntMax
    ensures ParseInt(ShowInt(n)) == Some(n)
  {
    if n < 0 {
      DigitsValueOfShowNat(-n);
      assert ShowInt(n)[1..] == ShowNat(-n);
    } else {
      DigitsValueOfShowNat(n);
    }
  }

  /** A decimal text outside the 32-bit range is rejected, not wrapped round. */
  lemma ParseIntRejectsOverflow(n: int)
    requires n < IntMin || IntMax < n
    ensures ParseInt(ShowInt(n)) == None
  {
    if n < 0 {
      DigitsValueOfShowNat(-n);
      assert Unsigned(ShowInt(n)) == ShowNat(-n);
    } else {
      DigitsValueOfShowNat(n);
      assert IsDigit(ShowNat(n)[0]);
    }
  }
}
